=== FILE: README.md ===
# AlphaSignal news core in Dafny

This project models the news pipeline of AlphaSignal's backend:
`backend/app/services/news_service.py` and `backend/app/services/rss_discovery.py`.
It covers the following stages:

- **Fetch cycle** (`fetch_news_from_all_sources`). Every curated feed is read and gets one or two health records (`ok`, `failed`, `failed: <reason>`). Its entries are normalised to news items. Items with the same normalised title and calendar day are merged into one record. The record keeps its first item's fields, lists every contributing source, and carries "additional info" from the last item whose description is longer than the first one's.
- **Relevance filter** (`filter_news_by_stock`). It builds five keywords from the stock's name and symbol. It keeps the stories whose lower-cased title or description contains one of them, and labels each kept story with the symbol.
- **Persistence**:
  - `save_news_to_db` inserts news rows by link, all-or-nothing.
  - `fetch_and_store_raw_news` inserts raw rows by link, feed by feed. It commits after each feed whose entry loop finishes without raising. Rows of a feed that raises stay pending until a later commit.
  - `deduplicate_and_store_aggregated_news` groups the raw rows greedily into clusters by title similarity and same day. It then stores each cluster unless one with the same title and publish time exists.
- **RSS discovery** (`discover_*_feeds`, `discover_all_feeds`). It keeps the anchors that mention `rss`, makes them absolute against the site's host, and drops duplicates. The result is four named lists, one of them a fixed Economic Times feed.

Modules (one file each):

| file | module | contents |
|---|---|---|
| wrappers.dfy | `Wrappers` | `Option`, `Result`, and `Field` (a dict key that is missing, bound to `None`, or bound to a value) |
| text.dfy | `Text` | ASCII `lower()`, substring search, `startswith`, `str.replace` with an empty result, `split('.')[0]`, zero-padded decimals |
| clock.dfy | `Clock` | `datetime(*published_parsed[:6])` with its validation order and error texts; the `%Y-%m-%d` day key |
| entries.dfy | `Entries` | feed entries, news items, the title key `re.sub(r'[^a-zA-Z0-9 ]', '', title.lower())` and the dedup key |
| streaming.dfy | `Streaming` | the merge of one item into the `seen` records, and its reference description |
| seqs.dfy | `Seqs` | generic map, flat-map and stop-at-first-error over sequences |
| fetch_cycle.dfy | `FetchCycle` | the fetch cycle over the source list, and its health records |
| relevance.dfy | `Relevance` | the keyword filter |
| store.dfy | `Store` | a table extended only by insert-if-the-key-is-absent |
| news_store.dfy | `NewsStore` | `save_news_to_db` and `fetch_and_store_raw_news` |
| fuzzy.dfy | `Fuzzy` | the greedy cluster pass and the aggregated table |
| discovery.dfy | `Discovery` | RSS discovery |

Network fetches and HTML or feed parsing are inputs to the model:
- `FetchOutcome`: a feed is unreachable with an error text, or delivered with its entries.
- `ListingPage`: a listing page failed, or was fetched with its hrefs.

The clock is a `now` parameter. `difflib.SequenceMatcher(...).ratio() > 0.85` is a parameter `similar`.

Some behaviours of the code that the model keeps as written:
- **Empty feed.** A feed that parses to no entries gets the health record `failed` (news_service.py:67-69). It is not reported as a separate "empty" status.
- **Stored description.** A merged record keeps the description of its first item. It is never replaced by a longer one (news_service.py:93-106, 341-345).
- **Additional info.** This is the last later item whose description is longer than the first item's. It is not necessarily the longest (news_service.py:93-97). With descriptions `""`, `"full text"`, `"mid"`, the third item's wins.
- **Bad dates.** An invalid parsed date raises after the `ok` record was written. The source then gets a second record, `failed: <reason>`, and the items merged before the bad entry stay merged (news_service.py:70-75, 107-108).

## Model

| member | source | states |
|---|---|---|
| Clock.ToTimestamp | backend/app/services/news_service.py:73-75 | A parsed date converts exactly when the year is in 1..9999, the month in 1..12, the day within the month (leap years per the Gregorian rule) and the hour, minute and second in range; the timestamp then carries those fields with zero microseconds |
| Clock.DateKey | backend/app/services/news_service.py:78 | The day key is ten characters long |
| Clock.DateKeyShape | backend/app/services/news_service.py:78 | The day key is ten characters `dddd-dd-dd`: dashes at positions 4 and 7, digits elsewhere |
| Clock.DateKeyInjective | backend/app/services/news_service.py:78 | On valid dates, two day keys are equal exactly when the dates are equal |
| Entries.KeyCharsFacts | backend/app/services/news_service.py:77 | Stripping keeps only letters, digits and spaces taken from the input, and leaves a string made only of such characters unchanged |
| Entries.KeyCharsConcat | backend/app/services/news_service.py:77 | Stripping works character by character: a single character is kept exactly when it is an ASCII letter, a digit or a space, and stripping a concatenation concatenates the stripped parts |
| Entries.NormalizeTitle | backend/app/services/news_service.py:77 | The title key is never longer than the title |
| Entries.DedupKey | backend/app/services/news_service.py:76-79 | The dedup key is eleven characters longer than the title key, and the character eleven from the end is its only `_` |
| Entries.NormalizedTitleAlphabet | backend/app/services/news_service.py:77 | A title key holds only lower-case letters, digits and spaces, never `_`, and normalising it again changes nothing |
| Entries.DedupKeyInjective | backend/app/services/news_service.py:76-79 | For valid dates, two dedup keys are equal exactly when the title keys and the calendar days are equal (the `_` separator is unambiguous) |
| Entries.Normalize | backend/app/services/news_service.py:72-87 | An entry fails exactly when its parsed date is invalid, with that date's error; otherwise a missing title, description or link becomes `''`, the source is the feed's name, and the date is `now` when no parsed date is present and the converted parsed date otherwise |
| Streaming.Absorb | backend/app/services/news_service.py:88-106 | Merging one keyed item keeps `seen` equal to the reference description of all items so far: one record per distinct key in first-seen order, holding the first item's fields, every source in order, and the last richer item as additional info |
| Streaming.RepresentsReference | backend/app/services/news_service.py:88-106 | The reference description is the unique `seen` that represents a sequence of items |
| Streaming.KeysInOrderFacts | backend/app/services/news_service.py:98-113 | The output records have pairwise distinct keys, and a key has a record exactly when some item carries it |
| Streaming.FirstWithIsFirst | backend/app/services/news_service.py:98-106 | A record's base fields come from the first item with its key, and no earlier item has that key |
| Streaming.FirstWriterWins | backend/app/services/news_service.py:89-91 | Later items never change a record's title, description, link or date; they append their sources |
| Streaming.SourcesWithConcat | backend/app/services/news_service.py:91 | The sources of a key over two runs of items are the sources over the first followed by those over the second |
| Streaming.LastRicherIsLast | backend/app/services/news_service.py:92-97 | When present, the additional info is the source and description of the last item with the key whose description is strictly longer than the first item's |
| Streaming.LastRicherNone | backend/app/services/news_service.py:92-97 | The additional info is absent exactly when no item with the key has a description longer than the first item's |
| Streaming.RicherThanBase | backend/app/services/news_service.py:93-97 | Additional info, when present, is strictly longer than the record's own description |
| FetchCycle.HealthTextInjective | backend/app/services/news_service.py:67-108 | The three health texts `ok`, `failed` and `failed: <reason>` never coincide for different healths |
| FetchCycle.NormalizeEntries | backend/app/services/news_service.py:71-109 | The entries are normalised in order up to the first invalid date, which is reported; the rest of the feed is not read |
| FetchCycle.HarvestEntriesFacts | backend/app/services/news_service.py:71-109 | A feed contributes a prefix of its entries, each normalised from the entry at its position and labelled with the feed name; all of them exactly when no date is bad, and otherwise the entry right after the prefix has the reported error |
| FetchCycle.FoldEntries | backend/app/services/news_service.py:71-106 | Merging a feed's entries leaves `seen` equal to the reference description of everything merged before plus the feed's contribution, and reports the first bad date |
| FetchCycle.AbsorbAll | backend/app/services/news_service.py:88-106 | Merging a run of items extends the reference description by exactly those items |
| FetchCycle.AbsorbItem | backend/app/services/news_service.py:76-106 | Keying and merging one item extends the reference description by that item |
| FetchCycle.FetchOne | backend/app/services/news_service.py:48-109 | One source adds its contribution to `seen` and emits its health records: `failed: <error>` when unreachable, `failed` for an empty feed, `ok` otherwise, followed by `failed: <date error>` when an entry's date is bad |
| FetchCycle.FetchNewsFromAllSources | backend/app/services/news_service.py:39-114 | The health records are every source's records in source order, and the news are the merged records of all sources' contributions, one per distinct dedup key in first-seen order |
| FetchCycle.StatusesOf | backend/app/services/news_service.py:67-109 | Each source gets one or two records under its own name and URL, whose first health is decided by reachability and emptiness; there are two exactly when a non-empty feed has a bad date, and the second is `failed: <text of that date's error>` |
| FetchCycle.FailureIsolatedItems | backend/app/services/news_service.py:48-109 | A source that becomes unreachable contributes no items and leaves the other sources' contributions unchanged |
| FetchCycle.FailureIsolatedStatuses | backend/app/services/news_service.py:107-109 | A source that becomes unreachable gets exactly one `failed: <error>` record, and every other source's records are unchanged |
| Relevance.Keywords | backend/app/services/news_service.py:130-139 | There are five keywords, none holding an upper-case letter. They include the lower-cased name and the lower-cased symbol up to its first `.`, the third and fourth are `tata elxsi` and `elxsi`, and a lower-cased symbol containing neither `.ns` nor `.bo` is itself a keyword |
| Text.RemoveAllAbsent | backend/app/services/news_service.py:132 | `replace` leaves a string in which the pattern does not occur unchanged |
| Relevance.FilterNewsByStock | backend/app/services/news_service.py:116-160 | The result is empty when some title or description is `None`. Otherwise it is the stories related under the keywords of the given symbol and name (or the defaults `TATAELXSI.NS` and `Tata Elxsi`), in their original order, each labelled with the symbol; a story is kept exactly when it is related, and in particular every story whose lower-cased title or description mentions the lower-cased name or base symbol is kept |
| Relevance.KeepRelatedIsSubsequence | backend/app/services/news_service.py:143-152 | The kept stories are the labelled stories at strictly increasing positions, and a position is selected exactly when its story is related |
| Relevance.FilterIdempotent | backend/app/services/news_service.py:116-156 | Filtering the filtered stories again for the same stock returns them unchanged |
| Relevance.TataElxsiSubsumed | backend/app/services/news_service.py:130-148 | The keyword `tata elxsi` never changes a decision, because `elxsi` occurs inside it |
| Relevance.EmptyKeywordKeepsAll | backend/app/services/news_service.py:132-148 | A symbol that strips to the empty keyword (such as `.NS`) makes every story related |
| Store.InsertAllGrows | backend/app/services/news_service.py:355-368 | Query-then-add never modifies or removes stored rows, and the keys afterwards are the old keys together with the batch's keys |
| Store.InsertAllUnique | backend/app/services/news_service.py:355-368 | Query-then-add keeps the table's keys unique |
| Store.InsertAllIdempotent | backend/app/services/news_service.py:355-368 | Inserting the same batch a second time changes nothing |
| NewsStore.RowOf | backend/app/services/news_service.py:182-189 | A row is built exactly when the item has a title and a date and a `source` key. It carries the given link, the title and the date. Its source is the given one, or `Moneycontrol` when bound to `None`. Its description is `''` when missing, `None` when bound to `None`, and the given text otherwise. Its related stock is the given one, else `None` |
| NewsStore.SaveStep | backend/app/services/news_service.py:171-192 | One item fails unless it has a link. For a stored link it succeeds, adding nothing, exactly when its title is not bound to `None`. For a new link it succeeds exactly when its row can be built, and then appends that row |
| NewsStore.SaveStepFacts | backend/app/services/news_service.py:171-192 | One item either fails the batch or adds at most its link: stored rows stay in place and links stay unique; an item with a link, title, date and source never fails |
| NewsStore.SaveAll | backend/app/services/news_service.py:171-192 | A batch that does not raise keeps the stored rows in place and adds at most one row per item |
| NewsStore.SaveNewsToDb | backend/app/services/news_service.py:162-201 | A failed batch leaves the table as it was; a committed one keeps stored rows in place and adds at most one row per item; a batch of storable items on a table with unique links always commits |
| NewsStore.SaveAllFacts | backend/app/services/news_service.py:171-196 | A committed batch keeps every stored row in place, keeps links unique, and adds exactly the batch's links; every item of a committed batch had a link and a title not bound to `None` |
| NewsStore.SaveAllSucceeds | backend/app/services/news_service.py:171-196 | A batch of storable items always commits |
| NewsStore.SaveTwiceInsertsNothing | backend/app/services/news_service.py:162-201 | Saving a committed batch again returns success and leaves the table unchanged |
| NewsStore.SavePresent | backend/app/services/news_service.py:172-179 | A batch whose links are all stored already inserts nothing: it commits the table unchanged when no title is bound to `None`, and otherwise fails |
| NewsStore.RawRowOf | backend/app/services/news_service.py:392-404 | An entry yields a raw row exactly when its date converts and it has a link, and a bad date is reported first. The row carries the link, the aggregator label, the title and description or `''`, and the publish time: the converted parsed date, or `now` when there is none |
| NewsStore.StoreFeed | backend/app/services/news_service.py:391-405 | Storing a feed keeps stored rows in place and adds at most one row per entry |
| NewsStore.StoreFeedIsInsertAll | backend/app/services/news_service.py:391-405 | Storing a feed is query-then-add over the rows of its entries up to the first entry that raises |
| NewsStore.StoreFeedFacts | backend/app/services/news_service.py:391-406 | Storing a feed keeps stored rows in place, keeps links unique, and adds exactly that prefix's links |
| NewsStore.SessionRunGrows | backend/app/services/news_service.py:376-405 | The rows the session holds after any sources keep links unique and lose no link |
| NewsStore.SessionRunLinks | backend/app/services/news_service.py:376-405 | The session's links after some sources are the old ones together with those of every reachable feed's stored prefix; sources whose links are all present add nothing |
| NewsStore.SessionRunIdempotent | backend/app/services/news_service.py:376-405 | Running the same fetched feeds again adds nothing to the session |
| NewsStore.CommitPoint | backend/app/services/news_service.py:376-408 | The commit point counts the leading sources up to the last one whose entry loop reaches `db.commit()`; no later source does |
| NewsStore.RunFromCommitPoint | backend/app/services/news_service.py:376-408 | With the committed table and the session apart, the loop commits exactly what the session holds at the last commit, and nothing when no feed commits |
| NewsStore.FetchAndStoreRawNews | backend/app/services/news_service.py:371-408 | The table afterwards keeps the old rows in place and is what the session held at the last commit: rows added by feeds that raise after it are not committed, and when the last source commits nothing is lost |
| NewsStore.RawRunGrows | backend/app/services/news_service.py:371-408 | The committed table keeps links unique and loses no link |
| NewsStore.RawRunLinks | backend/app/services/news_service.py:371-408 | The committed links are the old ones together with those stored by the sources up to the last commit |
| NewsStore.RawRunIdempotent | backend/app/services/news_service.py:371-408 | Repeating a raw run over the same fetched feeds commits nothing new |
| Fuzzy.FirstMatch | backend/app/services/news_service.py:330-337 | The chosen cluster is one the row matches (similar lower-cased title, same day), and no earlier cluster matches; none is chosen exactly when no cluster matches |
| Fuzzy.Consolidate | backend/app/services/news_service.py:326-353 | There are at most as many clusters as raw rows, and at least one when there is a row |
| Fuzzy.AfterJoin | backend/app/services/news_service.py:338-345 | A row joining a cluster keeps every cluster equal to its reference description |
| Fuzzy.AfterSeed | backend/app/services/news_service.py:346-353 | A row opening a cluster keeps every cluster equal to its reference description |
| Fuzzy.ConsolidateIsExpected | backend/app/services/news_service.py:326-353 | Every row belongs to an existing cluster. Each cluster has the title, description and date of its first row, the labels of all its rows in order, and, as additional info, the last of its rows whose description is strictly longer than the first row's |
| Fuzzy.EveryRowCounted | backend/app/services/news_service.py:338-353 | The clusters hold as many source labels as there are raw rows |
| Fuzzy.NoTwinClusters | backend/app/services/news_service.py:331-353 | With a similarity under which every title is similar to itself, no two clusters share a lower-cased title and a day |
| Fuzzy.DeduplicateAndStoreAggregatedNews | backend/app/services/news_service.py:322-369 | Aggregated rows already stored stay in place, and the keys afterwards are the old keys together with the clusters' keys |
| Fuzzy.AggregatedGrows | backend/app/services/news_service.py:355-369 | Storing clusters never modifies or removes aggregated rows, keeps (title, publish time) unique, and afterwards every cluster's key is stored |
| Fuzzy.AggregatedRunTwice | backend/app/services/news_service.py:322-369 | A second consolidation over an unchanged raw table inserts nothing |
| Discovery.DotRssMentionsRss | backend/app/services/rss_discovery.py:29 | An href containing `.rss` contains `rss` once lower-cased |
| Discovery.Keep | backend/app/services/rss_discovery.py:29 | An href is kept exactly when its lower-cased form contains `rss`; the `.rss` test adds nothing |
| Discovery.Absolutize | backend/app/services/rss_discovery.py:30-33 | An href starting with `/` becomes host + href; one starting with neither `/` nor `http` becomes host + `/` + href; one starting with `http` is kept as is |
| Discovery.KeptLinks | backend/app/services/rss_discovery.py:27-34 | A page gives at most one link per href |
| Discovery.KeptLinksMembership | backend/app/services/rss_discovery.py:27-34 | A link is collected exactly when some href of the page mentions `rss` and absolutises to it |
| Discovery.KeptLinksHttp | backend/app/services/rss_discovery.py:30-34 | Against an `http` host, every collected link starts with `http` |
| Discovery.DiscoverFeeds | backend/app/services/rss_discovery.py:18-43 | A failed page gives `[]`; otherwise the result has no duplicates and holds exactly the collected links, each starting with `http` |
| Discovery.DiscoverBusinessStandardFeeds | backend/app/services/rss_discovery.py:16-43 | The discovery contract against `https://www.business-standard.com` |
| Discovery.DiscoverCnbcFeeds | backend/app/services/rss_discovery.py:45-71 | The discovery contract against `https://www.cnbctv18.com` |
| Discovery.DiscoverTimesOfIndiaFeeds | backend/app/services/rss_discovery.py:73-99 | The discovery contract against `https://timesofindia.indiatimes.com` |
| Discovery.DiscoverAllFeeds | backend/app/services/rss_discovery.py:101-114 | The result has exactly the keys Business Standard, CNBC-TV18, Times of India and Economic Times; the first three satisfy the discovery contract for their sites, Economic Times maps to its one fixed feed, and every link starts with `http` |

## Left out

Environment and foreign code:
- Network I/O is not modelled: `requests.get`, the retry without certificate verification, and `raise_for_status`. Each fetch is an input outcome, and any failure on the way is one error text.
- `feedparser.parse` and `BeautifulSoup` are not modelled. A feed is its list of entries; a page is its hrefs in document order.
- `difflib.SequenceMatcher.ratio() > 0.85` is the parameter `similar`. `Fuzzy.NoTwinClusters` assumes only that equal strings are similar.
- `datetime.now()` is one `now` parameter per run; the source reads the clock once per entry.
- Logging is not modelled.
- Environment-variable overrides of the default symbol and name are not modelled: `STOCK_SYMBOL` and `STOCK_NAME` are taken as unset.

Language and libraries:
- Lower-casing is ASCII only; Python's Unicode `lower()` is not modelled.
- The `datetime` error texts are CPython 3.11's; they are version dependent.
- The day key writes the year as four zero-padded digits. `strftime('%Y')` does not pad years below 1000, which no feed date reaches in practice.
- `Relevance.FilterNewsByStock`: the source writes `related_stock` into the caller's dicts in place. The model returns labelled copies. So when a later `None` field makes the filter return `[]`, the earlier dicts that the source has already labelled are not modelled.

Database:
- `backend/app/database.py` is not part of this model. The session is assumed to autoflush, which is SQLAlchemy's default. So a query sees rows added earlier in the same batch, and duplicates within a batch are skipped.
- `backend/app/models.py` as given defines no `RawNews`, `AggregatedNews` or `RSSSource` class, so their column constraints are not part of this model. Raw and aggregated rows carry just the fields the service reads and writes.
- Column length limits (`String(500)` and the like) are not modelled.
- `NewsStore.FetchAndStoreRawNews`: the result is the table as the function's own commits leave it. Rows that feeds raising after the last commit leave pending are still in the caller's session when the function returns; whether the caller later commits or discards them depends on `get_db` in `backend/app/database.py`, which is not part of this model.
- The order of `db.query(...).all()` is the order of the input sequence.

Contracts that state less on their own:
- Clock.DateKey: its contract gives only the length; the shape and injectivity are `Clock.DateKeyShape` and `Clock.DateKeyInjective`.
- Entries.DedupKey: its contract gives the length and the single `_` separator. That keys agree exactly when both the title keys and the days agree is `Entries.DedupKeyInjective`.
- Entries.NormalizeTitle: its contract gives only the length bound; the alphabet and idempotence are `Entries.NormalizedTitleAlphabet`.
- Fuzzy.Consolidate: its contract bounds the number of clusters; their contents are `Fuzzy.ConsolidateIsExpected`.
- Discovery.KeptLinks: its contract bounds the number of links; which links come out is `Discovery.KeptLinksMembership`.

Structure:
- `FetchCycle.FoldEntries` handles a feed in two passes: it normalises the entries, then merges them. The source does both in one loop. This is equivalent because normalising never reads `seen`.
- The `DiscoverFeeds` methods return links in first-occurrence order. `list(set(...))` leaves the order open, so their contracts state only membership and the absence of duplicates.

Operations outside this model: `get_news_from_db`, `update_news_data` and its call to the undefined `fetch_news_from_rss`, `get_latest_news_summary`, `discover_and_store_rss_sources` (a fixed list of URL inserts), the stock service, the API routes, the schemas, `main.py`, and the test scripts.

=== FILE: clock.dfy ===
/** Calendar dates and timestamps as the services see them: Python `datetime`
    values, the conversion of a feed's parsed publish time into one, and the
    `%Y-%m-%d` rendering used in the exact dedup key. */
module Clock {
  import opened Wrappers
  import opened Text

  datatype Date = Date(year: nat, month: nat, day: nat)

  /** A `datetime`; `microsecond` is only ever non-zero for the wall clock. */
  datatype Timestamp = Timestamp(date: Date, hour: nat, minute: nat, second: nat, microsecond: nat)

  /** The first six fields of a feed entry's `published_parsed` struct_time. */
  datatype ParsedTime = ParsedTime(year: int, month: int, day: int, hour: int, minute: int, second: int)

  /** The `ValueError`s the `datetime` constructor raises, in the order it checks. */
  datatype DateError =
    | YearOutOfRange(year: int)
    | MonthOutOfRange
    | DayOutOfRange
    | HourOutOfRange
    | MinuteOutOfRange
    | SecondOutOfRange

  const MinYear := 1
  const MaxYear := 9999

  predicate IsLeapYear(y: int) {
    y % 4 == 0 && (y % 100 != 0 || y % 400 == 0)
  }

  function DaysInMonth(y: int, m: int): nat
    requires 1 <= m <= 12
  {
    if m == 2 then (if IsLeapYear(y) then 29 else 28)
    else if m == 4 || m == 6 || m == 9 || m == 11 then 30
    else 31
  }

  predicate ValidDate(d: Date) {
    MinYear <= d.year <= MaxYear && 1 <= d.month <= 12 && 1 <= d.day <= DaysInMonth(d.year, d.month)
  }

  /** The invariant every Python `datetime` value keeps. */
  predicate ValidTimestamp(t: Timestamp) {
    ValidDate(t.date) && t.hour < 24 && t.minute < 60 && t.second < 60 && t.microsecond < 1000000
  }

  /** The field the `datetime` constructor would reject first, if any. */
  function FirstBadField(p: ParsedTime): Option<DateError> {
    if p.year < MinYear || p.year > MaxYear then Some(YearOutOfRange(p.year))
    else if p.month < 1 || p.month > 12 then Some(MonthOutOfRange)
    else if p.day < 1 || p.day > DaysInMonth(p.year, p.month) then Some(DayOutOfRange)
    else if p.hour < 0 || p.hour > 23 then Some(HourOutOfRange)
    else if p.minute < 0 || p.minute > 59 then Some(MinuteOutOfRange)
    else if p.second < 0 || p.second > 59 then Some(SecondOutOfRange)
    else None
  }

  /** `datetime(*published_parsed[:6])`: succeeds exactly on the six fields of a
      real calendar instant, which it then carries unchanged. */
  function ToTimestamp(p: ParsedTime): (r: Result<Timestamp, DateError>)
    ensures r.Ok? <==> (MinYear <= p.year <= MaxYear && 1 <= p.month <= 12
                        && 1 <= p.day <= DaysInMonth(p.year, p.month)
                        && 0 <= p.hour < 24 && 0 <= p.minute < 60 && 0 <= p.second < 60)
    ensures r.Ok? ==> ValidTimestamp(r.value)
    ensures r.Ok? ==> r.value.date == Date(p.year, p.month, p.day)
    ensures r.Ok? ==> r.value.hour == p.hour && r.value.minute == p.minute
                      && r.value.second == p.second && r.value.microsecond == 0
  {
    match FirstBadField(p)
    case Some(e) => Err(e)
    case None =>
      Ok(Timestamp(Date(p.year, p.month, p.day), p.hour, p.minute, p.second, 0))
  }

  /** `str(e)` of the `ValueError`, as CPython 3.11 words it. */
  function ErrorText(e: DateError): string {
    match e
    case YearOutOfRange(y) => "year " + Decimal(y) + " is out of range"
    case MonthOutOfRange => "month must be in 1..12"
    case DayOutOfRange => "day is out of range for month"
    case HourOutOfRange => "hour must be in 0..23"
    case MinuteOutOfRange => "minute must be in 0..59"
    case SecondOutOfRange => "second must be in 0..59"
  }

  /** `d.strftime('%Y-%m-%d')`: ten characters, digits and two dashes. */
  function DateKey(d: Date): (r: string)
    ensures |r| == 10
  {
    Padded(d.year, 4) + "-" + Padded(d.month, 2) + "-" + Padded(d.day, 2)
  }

  /** A date key is four digits, a dash, two digits, a dash and two digits. */
  lemma DateKeyShape(d: Date)
    ensures DateKey(d)[4] == '-' && DateKey(d)[7] == '-'
    ensures forall i :: 0 <= i < 10 && i != 4 && i != 7 ==> IsDigit(DateKey(d)[i])
  {
    PaddedDigits(d.year, 4);
    PaddedDigits(d.month, 2);
    PaddedDigits(d.day, 2);
    var k := DateKey(d);
    forall i | 0 <= i < 10 && i != 4 && i != 7
      ensures IsDigit(k[i])
    {
      if i < 4 {
        assert k[i] == Padded(d.year, 4)[i];
      } else if i < 7 {
        assert k[i] == Padded(d.month, 2)[i - 5];
      } else {
        assert k[i] == Padded(d.day, 2)[i - 8];
      }
    }
  }

  /** Two valid dates render to the same date key exactly when they are the
      same date. */
  lemma DateKeyInjective(d: Date, e: Date)
    requires ValidDate(d) && ValidDate(e)
    ensures DateKey(d) == DateKey(e) <==> d == e
  {
    if DateKey(d) == DateKey(e) {
      assert Power10(4) == 10000 && Power10(2) == 100;
      assert DateKey(d)[..4] == Padded(d.year, 4);
      assert DateKey(e)[..4] == Padded(e.year, 4);
      assert DateKey(d)[5..7] == Padded(d.month, 2);
      assert DateKey(e)[5..7] == Padded(e.month, 2);
      assert DateKey(d)[8..] == Padded(d.day, 2);
      assert DateKey(e)[8..] == Padded(e.day, 2);
      PaddedInjective(d.year, e.year, 4);
      PaddedInjective(d.month, e.month, 2);
      PaddedInjective(d.day, e.day, 2);
    }
  }
}

=== FILE: discovery.dfy ===
/** RSS feed discovery (backend/app/services/rss_discovery.py): each of the
    three `discover_*_feeds` methods fetches one listing page, keeps the
    anchors whose href mentions `rss`, makes relative hrefs absolute against
    the site's host and removes duplicates; `discover_all_feeds` gathers the
    three results and one fixed Economic Times feed.

    The HTTP fetch and the HTML parse are not modelled: a listing page is an
    input, either `Failed` (any exception on the way, including an error
    status) or the hrefs of its anchors in document order. */
module Discovery {
  import opened Text

  /** The outcome of fetching and parsing one listing page. */
  datatype ListingPage = Failed | Fetched(hrefs: seq<string>)

  const BusinessStandardHost: string := "https://www.business-standard.com"
  const CnbcHost: string := "https://www.cnbctv18.com"
  const TimesOfIndiaHost: string := "https://timesofindia.indiatimes.com"
  /** The one Economic Times feed listed directly: an `https` URL on
      `economictimes.indiatimes.com`. */
  const EconomicTimesFeed: string := "https://" + "economictimes.indiatimes.com/markets/rssfeeds/1977021501.cms"

  /** An href containing `.rss` also contains `rss` once lower-cased. */
  lemma DotRssMentionsRss(href: string)
    ensures Contains(href, ".rss") ==> Contains(Lower(href), "rss")
  {
    if Contains(href, ".rss") {
      assert OccursAt(".rss", "rss", 1);
      ContainsTransitive(href, ".rss", "rss");
      var i :| 0 <= i <= |href| && OccursAt(href, "rss", i);
      LowerKeepsLowerNeedle(href, "rss", i);
    }
  }

  /** The keep test as written, `'.rss' in href or 'rss' in href.lower()`,
      whose first disjunct is redundant: an href is kept exactly when its
      lower-cased form contains `rss`. */
  predicate Keep(href: string)
    ensures Keep(href) <==> Contains(Lower(href), "rss")
  {
    DotRssMentionsRss(href);
    Contains(href, ".rss") || Contains(Lower(href), "rss")
  }

  /** Making an href absolute against the site's host: a root-relative href
      is appended to the host, one not starting with `http` is appended
      after a slash, and any other is kept. */
  function Absolutize(host: string, href: string): (r: string)
    ensures StartsWith(href, "http") ==> r == href
    ensures StartsWith(href, "/") ==> r == host + href
    ensures !StartsWith(href, "/") && !StartsWith(href, "http") ==> r == host + "/" + href
    ensures !StartsWith(href, "http") ==> StartsWith(r, host)
  {
    if StartsWith(href, "/") then
      assert href[0] == "/"[0] && (host + href)[..|host|] == host;
      host + href
    else if !StartsWith(href, "http") then
      assert (host + "/" + href)[..|host|] == host;
      host + "/" + href
    else href
  }

  /** Against a host that starts with `http`, every result starts with
      `http`, and absolutising twice is absolutising once. */
  lemma AbsolutizeFacts(host: string, href: string)
    requires StartsWith(host, "http")
    ensures StartsWith(Absolutize(host, href), "http")
    ensures Absolutize(host, Absolutize(host, href)) == Absolutize(host, href)
  {
    var r := Absolutize(host, href);
    if !StartsWith(href, "http") {
      assert r[..4] == r[..|host|][..4] == host[..4];
    }
  }

  /** The absolutised kept hrefs of a page, in document order, duplicates
      included. */
  function KeptLinks(host: string, hrefs: seq<string>): (r: seq<string>)
    ensures |r| <= |hrefs|
  {
    if hrefs == [] then []
    else
      var last := hrefs[|hrefs| - 1];
      KeptLinks(host, hrefs[..|hrefs| - 1]) + (if Keep(last) then [Absolutize(host, last)] else [])
  }

  /** The href at position `i` of a page is kept and absolutises to `x`. */
  predicate YieldsAt(host: string, hrefs: seq<string>, i: int, x: string) {
    0 <= i < |hrefs| && Keep(hrefs[i]) && Absolutize(host, hrefs[i]) == x
  }

  /** A link comes out of a page exactly when some href of the page
      mentions `rss` and absolutises to it. */
  lemma {:induction false} KeptLinksMembership(host: string, hrefs: seq<string>, x: string)
    ensures x in KeptLinks(host, hrefs)
            <==> exists i :: 0 <= i < |hrefs| && Keep(hrefs[i]) && Absolutize(host, hrefs[i]) == x
  {
    if x in KeptLinks(host, hrefs) {
      var i := KeptLinkSource(host, hrefs, x);
      assert YieldsAt(host, hrefs, i, x);
    }
    if exists i :: 0 <= i < |hrefs| && Keep(hrefs[i]) && Absolutize(host, hrefs[i]) == x {
      var i :| 0 <= i < |hrefs| && Keep(hrefs[i]) && Absolutize(host, hrefs[i]) == x;
      KeptLinkFromSource(host, hrefs, i, x);
    }
  }

  /** Every link of a page comes from some href of it. */
  lemma {:induction false} KeptLinkSource(host: string, hrefs: seq<string>, x: string) returns (i: int)
    requires x in KeptLinks(host, hrefs)
    ensures YieldsAt(host, hrefs, i, x)
    decreases |hrefs|
  {
    var init, last := hrefs[..|hrefs| - 1], hrefs[|hrefs| - 1];
    if x in KeptLinks(host, init) {
      i := KeptLinkSource(host, init, x);
      assert hrefs[i] == init[i];
    } else {
      i := |hrefs| - 1;
    }
  }

  /** Every kept href of a page gives a link of it. */
  lemma {:induction false} KeptLinkFromSource(host: string, hrefs: seq<string>, i: int, x: string)
    requires YieldsAt(host, hrefs, i, x)
    ensures x in KeptLinks(host, hrefs)
    decreases |hrefs|
  {
    var init := hrefs[..|hrefs| - 1];
    if i < |init| {
      assert init[i] == hrefs[i];
      KeptLinkFromSource(host, init, i, x);
    }
  }

  /** Against a host that starts with `http`, every link starts with `http`. */
  lemma {:induction false} KeptLinksHttp(host: string, hrefs: seq<string>)
    requires StartsWith(host, "http")
    ensures forall x :: x in KeptLinks(host, hrefs) ==> StartsWith(x, "http")
  {
    if hrefs != [] {
      KeptLinksHttp(host, hrefs[..|hrefs| - 1]);
      AbsolutizeFacts(host, hrefs[|hrefs| - 1]);
    }
  }

  predicate NoDuplicates(s: seq<string>) {
    forall i, j :: 0 <= i < j < |s| ==> s[i] != s[j]
  }

  /** What a discovery call returns for a page: nothing for a failed page,
      otherwise the kept, absolutised links without duplicates, in some
      order. */
  ghost predicate Discovered(host: string, page: ListingPage, links: seq<string>) {
    && NoDuplicates(links)
    && match page
       case Failed => links == []
       case Fetched(hrefs) => forall x :: x in links <==> x in KeptLinks(host, hrefs)
  }

  /** The body shared by the three discovery methods; `list(set(...))`
      leaves the order open, and this one keeps first occurrences. */
  method DiscoverFeeds(host: string, page: ListingPage) returns (links: seq<string>)
    ensures Discovered(host, page, links)
    ensures StartsWith(host, "http") ==> forall x :: x in links ==> StartsWith(x, "http")
  {
    links := [];
    if page.Failed? {
      return;
    }
    var hrefs := page.hrefs;
    for i := 0 to |hrefs|
      invariant NoDuplicates(links)
      invariant forall x :: x in links <==> x in KeptLinks(host, hrefs[..i])
    {
      var step := if Keep(hrefs[i]) then [Absolutize(host, hrefs[i])] else [];
      assert KeptLinks(host, hrefs[..i + 1]) == KeptLinks(host, hrefs[..i]) + step by {
        assert hrefs[..i + 1][..i] == hrefs[..i];
      }
      if step != [] && step[0] !in links {
        links := links + step;
      }
    }
    assert hrefs[..|hrefs|] == hrefs;
    if StartsWith(host, "http") {
      KeptLinksHttp(host, hrefs);
    }
  }

  /** `discover_business_standard_feeds`. */
  method DiscoverBusinessStandardFeeds(page: ListingPage) returns (links: seq<string>)
    ensures Discovered(BusinessStandardHost, page, links)
    ensures forall x :: x in links ==> StartsWith(x, "http")
  {
    links := DiscoverFeeds(BusinessStandardHost, page);
  }

  /** `discover_cnbc_feeds`. */
  method DiscoverCnbcFeeds(page: ListingPage) returns (links: seq<string>)
    ensures Discovered(CnbcHost, page, links)
    ensures forall x :: x in links ==> StartsWith(x, "http")
  {
    links := DiscoverFeeds(CnbcHost, page);
  }

  /** `discover_times_of_india_feeds`. */
  method DiscoverTimesOfIndiaFeeds(page: ListingPage) returns (links: seq<string>)
    ensures Discovered(TimesOfIndiaHost, page, links)
    ensures forall x :: x in links ==> StartsWith(x, "http")
  {
    links := DiscoverFeeds(TimesOfIndiaHost, page);
  }

  /** `discover_all_feeds`: exactly four sites, the three discovered lists
      and the one fixed Economic Times feed. */
  method DiscoverAllFeeds(businessStandard: ListingPage, cnbc: ListingPage, timesOfIndia: ListingPage)
    returns (feeds: map<string, seq<string>>)
    ensures feeds.Keys == {"Business Standard", "CNBC-TV18", "Times of India", "Economic Times"}
    ensures Discovered(BusinessStandardHost, businessStandard, feeds["Business Standard"])
    ensures Discovered(CnbcHost, cnbc, feeds["CNBC-TV18"])
    ensures Discovered(TimesOfIndiaHost, timesOfIndia, feeds["Times of India"])
    ensures feeds["Economic Times"] == [EconomicTimesFeed]
    ensures forall k, x :: k in feeds && x in feeds[k] ==> StartsWith(x, "http")
  {
    var bs := DiscoverBusinessStandardFeeds(businessStandard);
    var cn := DiscoverCnbcFeeds(cnbc);
    var toi := DiscoverTimesOfIndiaFeeds(timesOfIndia);
    feeds := map["Business Standard" := bs, "CNBC-TV18" := cn, "Times of India" := toi];
    feeds := feeds["Economic Times" := [EconomicTimesFeed]];
    assert EconomicTimesFeed[..4] == "https://"[..4];
  }
}

=== FILE: entries.dfy ===
/** Entry normalisation (backend/app/services/news_service.py, the body of the
    per-entry loop in `fetch_news_from_all_sources`): a feed entry with
    optional fields becomes a news item with every field decided, and the
    exact dedup key `<normalised title>_<YYYY-MM-DD>` is derived from it. */
module Entries {
  import opened Wrappers
  import opened Text
  import opened Clock
  import opened Seqs

  /** One entry as the feed parser hands it over; any field may be absent. */
  datatype FeedEntry = FeedEntry(
    title: Option<string>,
    description: Option<string>,
    link: Option<string>,
    published: Option<ParsedTime>)

  /** A normalised entry, labelled with the name of the source it came from. */
  datatype NewsItem = NewsItem(
    title: string,
    description: string,
    link: string,
    published: Timestamp,
    source: string)

  /** The `{source, details}` record naming a richer later report of a story. */
  datatype Info = Info(source: string, details: string)

  /** The characters the title normalisation keeps: `[a-zA-Z0-9 ]`. */
  predicate IsKeyChar(c: char) {
    IsUpper(c) || IsLowerLetter(c) || IsDigit(c) || c == ' '
  }

  /** `re.sub(r'[^a-zA-Z0-9 ]', '', s)`: the key characters of `s`, in order. */
  function KeyChars(s: string): (r: string)
    ensures |r| <= |s|
  {
    if |s| == 0 then []
    else if IsKeyChar(s[0]) then [s[0]] + KeyChars(s[1..])
    else KeyChars(s[1..])
  }

  /** The filter keeps only key characters, each taken from `s`, and leaves a
      string made of key characters alone. */
  lemma {:induction false} KeyCharsFacts(s: string)
    ensures forall i :: 0 <= i < |KeyChars(s)| ==> IsKeyChar(KeyChars(s)[i]) && KeyChars(s)[i] in s
    ensures (forall i :: 0 <= i < |s| ==> IsKeyChar(s[i])) ==> KeyChars(s) == s
  {
    if |s| > 0 {
      KeyCharsFacts(s[1..]);
      var t := KeyChars(s[1..]);
      forall i | 0 <= i < |t|
        ensures t[i] in s
      {
        assert s[1..][..] == s[1..];
        var k :| 0 <= k < |s[1..]| && s[1..][k] == t[i];
        assert s[k + 1] == t[i];
      }
      if forall i :: 0 <= i < |s| ==> IsKeyChar(s[i]) {
        assert forall i :: 0 <= i < |s[1..]| ==> IsKeyChar(s[1..][i]) by {
          forall i | 0 <= i < |s[1..]| ensures IsKeyChar(s[1..][i]) {
            assert s[1..][i] == s[i + 1];
          }
        }
        assert s == [s[0]] + s[1..];
      }
    }
  }

  /** The filter works character by character: it keeps a single character
      exactly when it is a key character, and filtering a concatenation is
      concatenating the filtered parts. Together these determine the filter. */
  lemma {:induction false} KeyCharsConcat(a: string, b: string)
    ensures |a| == 1 ==> KeyChars(a) == if IsKeyChar(a[0]) then a else []
    ensures KeyChars(a + b) == KeyChars(a) + KeyChars(b)
    decreases |a|
  {
    if |a| == 1 {
      assert a[1..] == [];
      assert a == [a[0]];
    }
    if |a| == 0 {
      assert a + b == b;
    } else {
      assert (a + b)[0] == a[0];
      assert (a + b)[1..] == a[1..] + b;
      KeyCharsConcat(a[1..], b);
    }
  }

  /** The title part of the dedup key: lower-cased, then stripped of every
      character outside `[a-zA-Z0-9 ]`. */
  function NormalizeTitle(t: string): (r: string)
    ensures |r| <= |t|
  {
    KeyChars(Lower(t))
  }

  /** A normalised title holds only lower-case ASCII letters, digits and
      spaces, so in particular no `_`; normalising it again changes nothing. */
  lemma NormalizedTitleAlphabet(t: string)
    ensures forall i :: 0 <= i < |NormalizeTitle(t)| ==>
      var c := NormalizeTitle(t)[i]; IsLowerLetter(c) || IsDigit(c) || c == ' '
    ensures '_' !in NormalizeTitle(t)
    ensures NormalizeTitle(NormalizeTitle(t)) == NormalizeTitle(t)
  {
    var n := NormalizeTitle(t);
    LowerIsLower(t);
    KeyCharsFacts(Lower(t));
    forall i | 0 <= i < |n|
      ensures !IsUpper(n[i])
    {
      var j :| 0 <= j < |Lower(t)| && Lower(t)[j] == n[i];
    }
    assert Lower(n) == n;
    KeyCharsFacts(n);
  }

  /** The exact dedup key of a normalised item. */
  function DedupKey(item: NewsItem): (r: string)
    ensures |r| == |NormalizeTitle(item.title)| + 11
    ensures r[|r| - 11] == '_' && '_' !in r[..|r| - 11]
  {
    NormalizedTitleAlphabet(item.title);
    var n, d := NormalizeTitle(item.title), DateKey(item.published.date);
    assert (n + "_" + d)[..|n|] == n && (n + "_" + d)[|n| + 1..] == d;
    n + "_" + d
  }

  /** A normalised item next to the dedup key computed for it, as the entry
      loop holds `news_item` and `dedup_key` side by side. */
  datatype Keyed = Keyed(key: string, item: NewsItem)

  function WithKey(item: NewsItem): Keyed {
    Keyed(DedupKey(item), item)
  }

  /** Every item of a run next to its dedup key, in order. */
  function KeyAll(items: seq<NewsItem>): seq<Keyed> {
    Map(items, WithKey)
  }

  /** Two items with real dates share a dedup key exactly when their normalised
      titles are equal and they were published on the same calendar date. */
  lemma DedupKeyInjective(a: NewsItem, b: NewsItem)
    requires ValidDate(a.published.date) && ValidDate(b.published.date)
    ensures DedupKey(a) == DedupKey(b) <==>
      NormalizeTitle(a.title) == NormalizeTitle(b.title) && a.published.date == b.published.date
  {
    var ka, kb := DedupKey(a), DedupKey(b);
    if ka == kb {
      var na, nb := NormalizeTitle(a.title), NormalizeTitle(b.title);
      assert |na| == |nb|;
      assert ka[..|na|] == na && kb[..|nb|] == nb;
      assert ka[|na| + 1..] == DateKey(a.published.date);
      assert kb[|nb| + 1..] == DateKey(b.published.date);
      DateKeyInjective(a.published.date, b.published.date);
    }
  }

  /** The publish time of an entry: its parsed time converted to a `datetime`
      (which may raise), or the wall clock `now` when the entry has none. */
  function PublishedAt(e: FeedEntry, now: Timestamp): Result<Timestamp, DateError> {
    match e.published
    case None => Ok(now)
    case Some(p) => ToTimestamp(p)
  }

  /** The news item built from an entry of the source `name`: missing title,
      description and link become `''`; only the date conversion can fail. */
  function Normalize(e: FeedEntry, name: string, now: Timestamp): (r: Result<NewsItem, DateError>)
    ensures r.Ok? <==> PublishedAt(e, now).Ok?
    ensures r.Err? ==> r.error == PublishedAt(e, now).error
    ensures r.Ok? ==> r.value.title == e.title.GetOr("") && r.value.description == e.description.GetOr("")
                      && r.value.link == e.link.GetOr("") && r.value.source == name
    ensures r.Ok? && ValidTimestamp(now) ==> ValidTimestamp(r.value.published)
    ensures r.Ok? && e.published.None? ==> r.value.published == now
    ensures r.Ok? && e.published.Some? ==> r.value.published == ToTimestamp(e.published.value).value
  {
    match PublishedAt(e, now)
    case Err(err) => Err(err)
    case Ok(t) => Ok(NewsItem(e.title.GetOr(""), e.description.GetOr(""), e.link.GetOr(""), t, name))
  }
}

=== FILE: fetch_cycle.dfy ===
/** One multi-source fetch cycle, `fetch_news_from_all_sources`
    (backend/app/services/news_service.py): every configured source is
    fetched in order, its health is recorded, and its entries are normalised
    and folded into the streaming deduper.

    The network is not modelled: each source comes with the outcome of its
    fetch (the strict-then-relaxed TLS retry included), either the error text
    of the exception that ended it or the entries the feed parser returned. */
module FetchCycle {
  import opened Wrappers
  import opened Clock
  import opened Entries
  import opened Streaming
  import opened Seqs

  /** A configured feed: its display name and URL. */
  datatype Source = Source(name: string, url: string)

  /** What fetching and parsing one source produced. */
  datatype FetchOutcome =
    | Unreachable(error: string)
    | Delivered(entries: seq<FeedEntry>)

  datatype Fetched = Fetched(source: Source, outcome: FetchOutcome)

  /** The `status` of a health record: `"ok"`, `"failed"` or `"failed: <msg>"`. */
  datatype Health = Healthy | Failed | FailedWith(reason: string)

  datatype SourceStatus = SourceStatus(name: string, url: string, health: Health)

  function HealthText(h: Health): string {
    match h
    case Healthy => "ok"
    case Failed => "failed"
    case FailedWith(reason) => "failed: " + reason
  }

  /** The three kinds of status text never collide: an empty feed's bare
      `"failed"` is told apart from every failure with a message, and two
      messages give the same text only when they are equal. */
  lemma HealthTextInjective(a: Health, b: Health)
    ensures HealthText(a) == HealthText(b) <==> a == b
  {
    if HealthText(a) == HealthText(b) && a.FailedWith? && b.FailedWith? {
      assert a.reason == HealthText(a)[8..];
      assert b.reason == HealthText(b)[8..];
    }
  }

  // ---------------------------------------------------------------------
  // Reference description of one cycle.
  // ---------------------------------------------------------------------

  /** Normalisation of entries of the source `name` at the time `now`. */
  function NormalizeAt(name: string, now: Timestamp): FeedEntry -> Result<NewsItem, DateError> {
    e => Normalize(e, name, now)
  }

  /** The outcome of normalising each entry of a feed on its own. */
  function Outcomes(es: seq<FeedEntry>, name: string, now: Timestamp): seq<Result<NewsItem, DateError>> {
    Map(es, NormalizeAt(name, now))
  }

  /** The normalised items of a feed's entries up to (not including) the
      first entry whose publish time cannot be converted. */
  function HarvestEntries(es: seq<FeedEntry>, name: string, now: Timestamp): seq<NewsItem> {
    OkPrefix(Outcomes(es, name, now))
  }

  /** The conversion error of the first entry that has one, if any. */
  function FirstBadEntry(es: seq<FeedEntry>, name: string, now: Timestamp): Option<DateError> {
    FirstErr(Outcomes(es, name, now))
  }

  /** What one source contributes to the deduper. */
  function Harvest(f: Fetched, now: Timestamp): seq<NewsItem> {
    match f.outcome
    case Unreachable(_) => []
    case Delivered(es) => HarvestEntries(es, f.source.name, now)
  }

  /** The health records one source adds: one record, or two when a
      non-empty feed holds an entry whose date cannot be converted (an `"ok"`
      followed by a `"failed: <msg>"`); an empty feed is `"failed"`, an
      unreachable one `"failed: <msg>"`, all under the source's own name and
      URL. */
  function StatusesOf(f: Fetched, now: Timestamp): (r: seq<SourceStatus>)
    ensures 1 <= |r| <= 2
    ensures forall x :: x in r ==> x.name == f.source.name && x.url == f.source.url
    ensures f.outcome.Unreachable? ==> r[0].health == FailedWith(f.outcome.error)
    ensures f.outcome == Delivered([]) ==> r[0].health == Failed
    ensures f.outcome.Delivered? && f.outcome.entries != [] ==> r[0].health == Healthy
    ensures |r| == 2 <==>
      f.outcome.Delivered? && f.outcome.entries != [] && FirstBadEntry(f.outcome.entries, f.source.name, now).Some?
    ensures |r| == 2 ==> r[1].health == FailedWith(ErrorText(FirstBadEntry(f.outcome.entries, f.source.name, now).value))
  {
    var name, url := f.source.name, f.source.url;
    match f.outcome
    case Unreachable(msg) => [SourceStatus(name, url, FailedWith(msg))]
    case Delivered(es) =>
      if es == [] then [SourceStatus(name, url, Failed)]
      else
        [SourceStatus(name, url, Healthy)]
        + match FirstBadEntry(es, name, now)
          case Some(e) => [SourceStatus(name, url, FailedWith(ErrorText(e)))]
          case None => []
  }

  /** `Harvest` and `StatusesOf` at a fixed wall-clock time. */
  function HarvestAt(now: Timestamp): Fetched -> seq<NewsItem> {
    f => Harvest(f, now)
  }

  function StatusesAt(now: Timestamp): Fetched -> seq<SourceStatus> {
    f => StatusesOf(f, now)
  }

  /** Every source's contribution, in configured order. */
  function Contributions(fs: seq<Fetched>, now: Timestamp): seq<NewsItem> {
    FlatMap(fs, HarvestAt(now))
  }

  /** Every source's health records, in configured order. */
  function StatusReport(fs: seq<Fetched>, now: Timestamp): seq<SourceStatus> {
    FlatMap(fs, StatusesAt(now))
  }

  // ---------------------------------------------------------------------
  // The cycle itself.
  // ---------------------------------------------------------------------

  /** The entry loop over one feed: folds each entry into `seen` until one
      raises on its publish time, and reports that error. Normalising an entry
      does not read `seen`, so the loop is the normalisation pass followed by
      the fold of the items it produced. */
  method FoldEntries(seen: Seen, es: seq<FeedEntry>, name: string, now: Timestamp, ghost done: seq<Keyed>)
    returns (next: Seen, error: Option<DateError>)
    requires seen == Reference(done)
    ensures next == Reference(done + KeyAll(HarvestEntries(es, name, now)))
    ensures error == FirstBadEntry(es, name, now)
  {
    var items;
    items, error := NormalizeEntries(es, name, now);
    next := AbsorbAll(seen, items, done);
  }

  /** Normalises entries in order until one raises on its publish time. */
  method NormalizeEntries(es: seq<FeedEntry>, name: string, now: Timestamp)
    returns (items: seq<NewsItem>, error: Option<DateError>)
    ensures items == HarvestEntries(es, name, now)
    ensures error == FirstBadEntry(es, name, now)
  {
    ghost var rs := Outcomes(es, name, now);
    items := [];
    var j := 0;
    error := None;
    while j < |es| && error.None?
      invariant 0 <= j <= |es|
      invariant error.None? ==> OkPrefix(rs) == items + OkPrefix(rs[j..]) && FirstErr(rs) == FirstErr(rs[j..])
      invariant error.Some? ==> items == OkPrefix(rs) && error == FirstErr(rs)
      decreases |es| - j, if error.None? then 1 else 0
    {
      var r := Normalize(es[j], name, now);
      MapAt(es, NormalizeAt(name, now), j);
      assert r == rs[j..][0];
      assert rs[j..][1..] == rs[j + 1..];
      match r {
        case Err(e) =>
          error := Some(e);
        case Ok(item) =>
          items := items + [item];
          j := j + 1;
      }
    }
    if error.None? {
      assert rs[j..] == [];
      assert items + [] == items;
    }
  }

  /** Folds normalised items, each keyed by its dedup key, into `seen`. */
  method AbsorbAll(seen: Seen, items: seq<NewsItem>, ghost done: seq<Keyed>) returns (next: Seen)
    requires seen == Reference(done)
    ensures next == Reference(done + KeyAll(items))
  {
    next := seen;
    var j := 0;
    assert done + KeyAll(items[..0]) == done;
    while j < |items|
      invariant 0 <= j <= |items|
      invariant next == Reference(done + KeyAll(items[..j]))
    {
      assert items[..j + 1] == items[..j] + [items[j]];
      next := AbsorbItem(next, items[j], done, items[..j]);
      j := j + 1;
    }
    assert items[..j] == items;
  }

  /** Folds one more normalised item, keyed by its dedup key, into `seen`. */
  method AbsorbItem(seen: Seen, item: NewsItem, ghost done: seq<Keyed>, ghost here: seq<NewsItem>)
    returns (next: Seen)
    requires seen == Reference(done + KeyAll(here))
    ensures next == Reference(done + KeyAll(here + [item]))
  {
    RepresentsReference(seen, done + KeyAll(here));
    next := Absorb(seen, WithKey(item), done + KeyAll(here));
    assert (here + [item])[..|here|] == here;
    assert done + KeyAll(here) + [WithKey(item)] == done + KeyAll(here + [item]);
    RepresentsReference(next, done + KeyAll(here + [item]));
  }

  /** The body of the source loop: record the source's health and fold its
      entries. */
  method FetchOne(seen: Seen, f: Fetched, now: Timestamp, ghost done: seq<Keyed>)
    returns (next: Seen, records: seq<SourceStatus>)
    requires seen == Reference(done)
    ensures next == Reference(done + KeyAll(Harvest(f, now)))
    ensures records == StatusesOf(f, now)
  {
    var name, url := f.source.name, f.source.url;
    next := seen;
    match f.outcome {
      case Unreachable(msg) =>
        records := [SourceStatus(name, url, FailedWith(msg))];
        assert done + KeyAll([]) == done;
      case Delivered(es) =>
        if |es| == 0 {
          records := [SourceStatus(name, url, Failed)];
          assert done + KeyAll([]) == done;
        } else {
          records := [SourceStatus(name, url, Healthy)];
          var error;
          next, error := FoldEntries(seen, es, name, now, done);
          if error.Some? {
            records := records + [SourceStatus(name, url, FailedWith(ErrorText(error.value)))];
          }
        }
    }
  }

  /** The fetch cycle: returns the deduplicated accumulators in first-sighting
      order and the health records in source order. The accumulators are
      exactly those the reference description prescribes for the items all
      sources contributed: one per distinct key, in order of first sighting. */
  method FetchNewsFromAllSources(fs: seq<Fetched>, now: Timestamp)
    returns (news: seq<Accumulator>, statuses: seq<SourceStatus>)
    ensures statuses == StatusReport(fs, now)
    ensures |news| == |KeysInOrder(KeyAll(Contributions(fs, now)))|
    ensures forall j :: 0 <= j < |news| ==>
      var c := KeyAll(Contributions(fs, now));
      FirstWith(c, KeysInOrder(c)[j]).Some? && news[j] == Expected(c, KeysInOrder(c)[j])
  {
    var seen: Seen := [];
    statuses := [];
    ghost var done: seq<Keyed> := [];
    var i := 0;
    while i < |fs|
      invariant 0 <= i <= |fs|
      invariant done == KeyAll(Contributions(fs[..i], now))
      invariant statuses == StatusReport(fs[..i], now)
      invariant seen == Reference(done)
    {
      assert fs[..i + 1][..i] == fs[..i];
      var records;
      seen, records := FetchOne(seen, fs[i], now, done);
      statuses := statuses + records;
      MapConcat(Contributions(fs[..i], now), Harvest(fs[i], now), WithKey);
      done := done + KeyAll(Harvest(fs[i], now));
      i := i + 1;
    }
    assert fs[..i] == fs;
    RepresentsReference(seen, done);
    news := seq(|seen|, j requires 0 <= j < |seen| => seen[j].1);
  }

  // ---------------------------------------------------------------------
  // Properties of the reference description.
  // ---------------------------------------------------------------------

  /** Failure isolation for items: when source `i` fails, it contributes
      nothing, and every other source contributes the same items as before. */
  lemma FailureIsolatedItems(fs: seq<Fetched>, i: nat, msg: string, now: Timestamp)
    requires i < |fs|
    ensures Contributions(fs[i := Fetched(fs[i].source, Unreachable(msg))], now)
            == Contributions(fs[..i], now) + Contributions(fs[i + 1..], now)
  {
    var failing := fs[i := Fetched(fs[i].source, Unreachable(msg))];
    assert failing == fs[..i] + [failing[i]] + fs[i + 1..];
    FlatMapAround(fs[..i], failing[i], fs[i + 1..], HarvestAt(now));
    assert HarvestAt(now)(failing[i]) == [];
  }

  /** Failure isolation for health records: a failing source `i` adds exactly
      one `"failed: <msg>"` record, and every other source's records stay. */
  lemma FailureIsolatedStatuses(fs: seq<Fetched>, i: nat, msg: string, now: Timestamp)
    requires i < |fs|
    ensures StatusReport(fs[i := Fetched(fs[i].source, Unreachable(msg))], now)
            == StatusReport(fs[..i], now) + [SourceStatus(fs[i].source.name, fs[i].source.url, FailedWith(msg))]
               + StatusReport(fs[i + 1..], now)
  {
    var failing := fs[i := Fetched(fs[i].source, Unreachable(msg))];
    assert failing == fs[..i] + [failing[i]] + fs[i + 1..];
    FlatMapAround(fs[..i], failing[i], fs[i + 1..], StatusesAt(now));
  }

  /** A feed's entries all reach the deduper unless one has an unconvertible
      date, in which case exactly those before it do; each is the
      normalisation of the entry at its position, labelled with the source. */
  lemma HarvestEntriesFacts(es: seq<FeedEntry>, name: string, now: Timestamp)
    ensures |HarvestEntries(es, name, now)| <= |es|
    ensures FirstBadEntry(es, name, now).None? <==> |HarvestEntries(es, name, now)| == |es|
    ensures forall j :: 0 <= j < |HarvestEntries(es, name, now)| ==>
      var item := HarvestEntries(es, name, now)[j];
      item.source == name && Normalize(es[j], name, now) == Ok(item)
    ensures FirstBadEntry(es, name, now).Some? ==>
      var j := |HarvestEntries(es, name, now)|;
      PublishedAt(es[j], now) == Err(FirstBadEntry(es, name, now).value)
  {
    var rs := Outcomes(es, name, now);
    OkPrefixFacts(rs);
    MapIndex(es, NormalizeAt(name, now));
  }
}

=== FILE: fuzzy.dfy ===
/** The fuzzy consolidator `deduplicate_and_store_aggregated_news`
    (backend/app/services/news_service.py): one greedy pass over the raw rows
    in retrieval order puts each row into the first open cluster whose
    lower-cased title is similar to its own and whose calendar date is the
    same, or opens a new cluster; the clusters are then stored, each only when
    no aggregated row has the same title and publish time.

    `difflib.SequenceMatcher(None, a, b).ratio() > 0.85` is not modelled; the
    test is the parameter `similar`, applied to the lower-cased title of the
    row and of the cluster, in that order. */
module Fuzzy {
  import opened Wrappers
  import opened Text
  import opened Clock
  import opened Entries
  import opened Store
  import opened NewsStore

  /** The similarity test: `ratio(row title, cluster title) > 0.85`. */
  type Similar = (string, string) -> bool

  /** One consolidated story; it is also the row stored in `aggregated_news`.
      `sources` holds the aggregator labels of the rows it absorbed. */
  datatype Cluster = Cluster(
    title: string,
    description: Option<string>,
    published: Timestamp,
    sources: seq<string>,
    additionalInfo: Option<Info>)

  /** `len(d or '')`. */
  function DescLen(d: Option<string>): nat {
    |d.GetOr("")|
  }

  /** The row may join the cluster. */
  predicate Matches(row: RawRow, c: Cluster, similar: Similar) {
    similar(Lower(row.title), Lower(c.title)) && row.published.date == c.published.date
  }

  /** The index of the first cluster the row may join, if any. */
  function FirstMatch(clusters: seq<Cluster>, row: RawRow, similar: Similar): (r: Option<nat>)
    ensures r.Some? ==> r.value < |clusters| && Matches(row, clusters[r.value], similar)
                        && forall j :: 0 <= j < r.value ==> !Matches(row, clusters[j], similar)
    ensures r.None? ==> forall j :: 0 <= j < |clusters| ==> !Matches(row, clusters[j], similar)
  {
    if clusters == [] then None
    else if Matches(row, clusters[0], similar) then Some(0)
    else
      match FirstMatch(clusters[1..], row, similar)
      case None => None
      case Some(j) => Some(j + 1)
  }

  /** The cluster a row opens. */
  function Seed(row: RawRow): Cluster {
    Cluster(row.title, row.description, row.published, [row.aggregator], None)
  }

  /** A row joining a cluster: its label is appended, and when its description
      is strictly longer than the cluster's own (seed) description it becomes
      the additional information. */
  function Join(c: Cluster, row: RawRow): Cluster {
    c.(sources := c.sources + [row.aggregator],
       additionalInfo :=
         if DescLen(row.description) > DescLen(c.description) then Some(Info(row.aggregator, row.description.GetOr("")))
         else c.additionalInfo)
  }

  /** One iteration of the pass. */
  function Place(clusters: seq<Cluster>, row: RawRow, similar: Similar): seq<Cluster> {
    match FirstMatch(clusters, row, similar)
    case Some(j) => clusters[j := Join(clusters[j], row)]
    case None => clusters + [Seed(row)]
  }

  /** The clusters after the pass over `rows`. */
  function Consolidate(rows: seq<RawRow>, similar: Similar): (r: seq<Cluster>)
    ensures |r| <= |rows|
    ensures rows != [] ==> |r| >= 1
  {
    if rows == [] then []
    else Place(Consolidate(rows[..|rows| - 1], similar), rows[|rows| - 1], similar)
  }

  /** For every row, the index of the cluster it went into. */
  function Owners(rows: seq<RawRow>, similar: Similar): seq<nat> {
    if rows == [] then []
    else
      var cs := Consolidate(rows[..|rows| - 1], similar);
      Owners(rows[..|rows| - 1], similar)
      + [match FirstMatch(cs, rows[|rows| - 1], similar) case Some(j) => j case None => |cs|]
  }

  // ---------------------------------------------------------------------
  // Reference description of one cluster, read off the rows it absorbed.
  // ---------------------------------------------------------------------

  /** The first row that went into cluster `c`. */
  function FirstOwned(rows: seq<RawRow>, owners: seq<nat>, c: nat): Option<RawRow>
    requires |owners| == |rows|
  {
    if rows == [] then None
    else
      var f := FirstOwned(rows[..|rows| - 1], owners[..|rows| - 1], c);
      if f.Some? then f
      else if owners[|rows| - 1] == c then Some(rows[|rows| - 1])
      else None
  }

  /** The labels of the rows that went into cluster `c`, in order. */
  function LabelsOf(rows: seq<RawRow>, owners: seq<nat>, c: nat): seq<string>
    requires |owners| == |rows|
  {
    if rows == [] then []
    else
      LabelsOf(rows[..|rows| - 1], owners[..|rows| - 1], c)
      + (if owners[|rows| - 1] == c then [rows[|rows| - 1].aggregator] else [])
  }

  /** The last row of cluster `c` whose description is longer than `n`. */
  function LastRicherOf(rows: seq<RawRow>, owners: seq<nat>, c: nat, n: nat): Option<Info>
    requires |owners| == |rows|
  {
    if rows == [] then None
    else
      var last := rows[|rows| - 1];
      if owners[|rows| - 1] == c && DescLen(last.description) > n then Some(Info(last.aggregator, last.description.GetOr("")))
      else LastRicherOf(rows[..|rows| - 1], owners[..|rows| - 1], c, n)
  }

  /** What cluster `c` should hold: the seed fields of its first row, the
      labels of all its rows, and the last row richer than the seed. */
  function ExpectedCluster(rows: seq<RawRow>, owners: seq<nat>, c: nat): Cluster
    requires |owners| == |rows|
    requires FirstOwned(rows, owners, c).Some?
  {
    var first := FirstOwned(rows, owners, c).value;
    Cluster(first.title, first.description, first.published,
            LabelsOf(rows, owners, c), LastRicherOf(rows, owners, c, DescLen(first.description)))
  }

  /** A cluster no row went into has no first row, no labels, no richer row. */
  lemma {:induction false} Unowned(rows: seq<RawRow>, owners: seq<nat>, c: nat, n: nat)
    requires |owners| == |rows|
    requires forall i :: 0 <= i < |owners| ==> owners[i] != c
    ensures FirstOwned(rows, owners, c).None?
    ensures LabelsOf(rows, owners, c) == []
    ensures LastRicherOf(rows, owners, c, n).None?
  {
    if rows != [] {
      Unowned(rows[..|rows| - 1], owners[..|rows| - 1], c, n);
    }
  }

  /** The pass keeps every cluster equal to its reference description, and
      every row is owned by a cluster that exists. */
  predicate Consistent(rows: seq<RawRow>, owners: seq<nat>, cs: seq<Cluster>) {
    && |owners| == |rows|
    && (forall i :: 0 <= i < |owners| ==> owners[i] < |cs|)
    && (forall c :: 0 <= c < |cs| ==> FirstOwned(rows, owners, c).Some? && cs[c] == ExpectedCluster(rows, owners, c))
  }

  /** A row joining cluster `j` keeps the clusters consistent. */
  lemma AfterJoin(rows: seq<RawRow>, owners: seq<nat>, cs: seq<Cluster>, row: RawRow, j: nat)
    requires Consistent(rows, owners, cs) && j < |cs|
    ensures Consistent(rows + [row], owners + [j], cs[j := Join(cs[j], row)])
  {
    var rows', owners' := rows + [row], owners + [j];
    assert rows'[..|rows|] == rows && owners'[..|rows|] == owners;
    forall c | 0 <= c < |cs|
      ensures FirstOwned(rows', owners', c).Some?
      ensures cs[j := Join(cs[j], row)][c] == ExpectedCluster(rows', owners', c)
    {
      assert FirstOwned(rows', owners', c) == FirstOwned(rows, owners, c);
    }
  }

  /** A row opening a new cluster keeps the clusters consistent. */
  lemma AfterSeed(rows: seq<RawRow>, owners: seq<nat>, cs: seq<Cluster>, row: RawRow)
    requires Consistent(rows, owners, cs)
    ensures Consistent(rows + [row], owners + [|cs|], cs + [Seed(row)])
  {
    var rows', owners' := rows + [row], owners + [|cs|];
    assert rows'[..|rows|] == rows && owners'[..|rows|] == owners;
    Unowned(rows, owners, |cs|, DescLen(row.description));
    forall c | 0 <= c < |cs|
      ensures FirstOwned(rows', owners', c).Some?
      ensures cs[c] == ExpectedCluster(rows', owners', c)
    {
      assert FirstOwned(rows', owners', c) == FirstOwned(rows, owners, c);
    }
  }

  /** Each cluster is its reference description: seeded by the first row that
      went into it, listing the labels of all its rows in order, and carrying
      as additional information the last of its rows whose description is
      strictly longer than the seed's. */
  lemma {:induction false} ConsolidateIsExpected(rows: seq<RawRow>, similar: Similar)
    ensures Consistent(rows, Owners(rows, similar), Consolidate(rows, similar))
  {
    if rows != [] {
      var init, last := rows[..|rows| - 1], rows[|rows| - 1];
      ConsolidateIsExpected(init, similar);
      var cs0, ow0 := Consolidate(init, similar), Owners(init, similar);
      assert rows == init + [last];
      match FirstMatch(cs0, last, similar) {
        case Some(j) =>
          AfterJoin(init, ow0, cs0, last, j);
        case None =>
          AfterSeed(init, ow0, cs0, last);
      }
    }
  }

  /** The total number of labels over all clusters. */
  function TotalSources(cs: seq<Cluster>): nat {
    if cs == [] then 0 else TotalSources(cs[..|cs| - 1]) + |cs[|cs| - 1].sources|
  }

  /** Replacing one cluster changes the total by the change of its labels. */
  lemma {:induction false} TotalSourcesUpdate(cs: seq<Cluster>, j: nat, c: Cluster)
    requires j < |cs|
    ensures TotalSources(cs[j := c]) + |cs[j].sources| == TotalSources(cs) + |c.sources|
  {
    var n := |cs| - 1;
    if j < n {
      TotalSourcesUpdate(cs[..n], j, c);
      assert cs[j := c][..n] == cs[..n][j := c];
    } else {
      assert cs[j := c][..n] == cs[..n];
    }
  }

  /** Every raw row lands in exactly one cluster's labels: the clusters hold
      as many labels as there are rows. */
  lemma {:induction false} EveryRowCounted(rows: seq<RawRow>, similar: Similar)
    ensures TotalSources(Consolidate(rows, similar)) == |rows|
  {
    if rows != [] {
      var init, last := rows[..|rows| - 1], rows[|rows| - 1];
      EveryRowCounted(init, similar);
      var cs0 := Consolidate(init, similar);
      match FirstMatch(cs0, last, similar) {
        case Some(j) =>
          TotalSourcesUpdate(cs0, j, Join(cs0[j], last));
        case None =>
          assert (cs0 + [Seed(last)])[..|cs0|] == cs0;
      }
    }
  }

  /** Two clusters with the same lower-cased title on the same date. */
  predicate Twins(x: Cluster, y: Cluster) {
    Lower(x.title) == Lower(y.title) && x.published.date == y.published.date
  }

  /** No two clusters of `cs` are twins. */
  predicate NoTwins(cs: seq<Cluster>) {
    forall a, b :: 0 <= a < b < |cs| ==> !Twins(cs[a], cs[b])
  }

  /** With a similarity under which every title is similar to itself (as
      `ratio` is 1.0 on equal strings), no two clusters share a lower-cased
      title and a date: a row with the same lower-cased title and date as an
      open cluster always joins an existing cluster. */
  lemma {:induction false} NoTwinClusters(rows: seq<RawRow>, similar: Similar)
    requires forall s :: similar(s, s)
    ensures NoTwins(Consolidate(rows, similar))
  {
    if rows != [] {
      var init, last := rows[..|rows| - 1], rows[|rows| - 1];
      NoTwinClusters(init, similar);
      var cs0 := Consolidate(init, similar);
      var cs := Consolidate(rows, similar);
      match FirstMatch(cs0, last, similar) {
        case Some(j) =>
          assert cs == cs0[j := Join(cs0[j], last)];
          forall a, b | 0 <= a < b < |cs|
            ensures !Twins(cs[a], cs[b])
          {
            assert !Twins(cs0[a], cs0[b]);
          }
        case None =>
          assert cs == cs0 + [Seed(last)];
          forall a, b | 0 <= a < b < |cs|
            ensures !Twins(cs[a], cs[b])
          {
            if b < |cs0| {
              assert !Twins(cs0[a], cs0[b]);
            } else if Twins(cs0[a], Seed(last)) {
              assert Matches(last, cs0[a], similar);
            }
          }
      }
    }
  }

  // ---------------------------------------------------------------------
  // Storing the clusters.
  // ---------------------------------------------------------------------

  /** The lookup key of `aggregated_news`: exact title and publish time. */
  function TitleAndTime(c: Cluster): (string, Timestamp) {
    (c.title, c.published)
  }

  /** `deduplicate_and_store_aggregated_news(db)`: the pass over the raw
      table, then each cluster inserted when its title and publish time are
      not stored yet. */
  function DeduplicateAndStoreAggregatedNews(stored: seq<Cluster>, raw: seq<RawRow>, similar: Similar): (r: seq<Cluster>)
    ensures |stored| <= |r| && r[..|stored|] == stored
    ensures Keys(r, TitleAndTime) == Keys(stored, TitleAndTime) + Keys(Consolidate(raw, similar), TitleAndTime)
  {
    InsertAllGrows(stored, Consolidate(raw, similar), TitleAndTime);
    InsertAll(stored, Consolidate(raw, similar), TitleAndTime)
  }

  /** Stored aggregated rows are never modified or removed, their keys stay
      unique, and every cluster's key is present afterwards. */
  lemma AggregatedGrows(stored: seq<Cluster>, raw: seq<RawRow>, similar: Similar)
    requires UniqueKeys(stored, TitleAndTime)
    ensures var r := DeduplicateAndStoreAggregatedNews(stored, raw, similar);
      && |stored| <= |r| && r[..|stored|] == stored
      && UniqueKeys(r, TitleAndTime)
      && Keys(r, TitleAndTime) == Keys(stored, TitleAndTime) + Keys(Consolidate(raw, similar), TitleAndTime)
  {
    InsertAllGrows(stored, Consolidate(raw, similar), TitleAndTime);
    InsertAllUnique(stored, Consolidate(raw, similar), TitleAndTime);
  }

  /** A second run over an unchanged raw table inserts nothing. */
  lemma AggregatedRunTwice(stored: seq<Cluster>, raw: seq<RawRow>, similar: Similar)
    ensures DeduplicateAndStoreAggregatedNews(DeduplicateAndStoreAggregatedNews(stored, raw, similar), raw, similar)
            == DeduplicateAndStoreAggregatedNews(stored, raw, similar)
  {
    InsertAllIdempotent(stored, Consolidate(raw, similar), TitleAndTime);
  }
}

=== FILE: news_store.dfy ===
/** The two link-keyed writers of backend/app/services/news_service.py:
    `save_news_to_db`, which stores a batch of news dicts in the `news` table
    in one transaction, and the entry loop of `fetch_and_store_raw_news`, which
    stores the entries of every configured feed in the `raw_news` table. Both
    look a link up first and add a row only when no row has that link. */
module NewsStore {
  import opened Wrappers
  import opened Clock
  import opened Entries
  import opened Store
  import FetchCycle

  // ---------------------------------------------------------------------
  // save_news_to_db
  // ---------------------------------------------------------------------

  /** A news dict handed to `save_news_to_db`; any key may be missing or
      bound to `None`. */
  datatype NewsDict = NewsDict(
    title: Field<string>,
    description: Field<string>,
    link: Field<string>,
    published: Field<Timestamp>,
    source: Field<string>,
    relatedStock: Field<string>)

  /** A row of the `news` table (backend/app/models.py); `description` and
      `related_stock` are nullable. */
  datatype NewsRow = NewsRow(
    title: string,
    description: Option<string>,
    link: string,
    published: Timestamp,
    source: string,
    relatedStock: Option<string>)

  /** The column default of `news.source`, used when the value is `None`. */
  const DefaultSource := "Moneycontrol"

  function NewsLink(r: NewsRow): string { r.link }

  function NewsLinks(rows: seq<NewsRow>): set<string> {
    Keys(rows, NewsLink)
  }

  /** The row built from a dict with a new link, or `None` when building or
      flushing it raises: a missing `title`, `published_date` or `source` key
      (`KeyError`), or `None` in a non-nullable column without a default. */
  function RowOf(d: NewsDict, link: string): (r: Option<NewsRow>)
    ensures r.Some? <==> d.title.Given? && d.published.Given? && !d.source.Missing?
    ensures r.Some? ==> r.value.link == link && r.value.title == d.title.value
    ensures r.Some? ==> r.value.published == d.published.value
    ensures r.Some? && d.source.Given? ==> r.value.source == d.source.value
    ensures r.Some? && d.source.Null? ==> r.value.source == DefaultSource
    ensures r.Some? && d.description.Missing? ==> r.value.description == Some("")
    ensures r.Some? && d.description.Null? ==> r.value.description == None
    ensures r.Some? && d.description.Given? ==> r.value.description == Some(d.description.value)
    ensures r.Some? && d.relatedStock.Given? ==> r.value.relatedStock == Some(d.relatedStock.value)
    ensures r.Some? && !d.relatedStock.Given? ==> r.value.relatedStock == None
  {
    if d.title.Given? && d.published.Given? && !d.source.Missing? then
      Some(NewsRow(
        d.title.value,
        match d.description
        case Missing => Some("")
        case Null => None
        case Given(s) => Some(s),
        link,
        d.published.value,
        if d.source.Given? then d.source.value else DefaultSource,
        if d.relatedStock.Given? then Some(d.relatedStock.value) else None))
    else None
  }

  /** One iteration of the save loop on the rows written so far (pending rows
      are flushed before each query, so they are found too): `None` when it
      raises. A missing link raises on `news_item['link']`; a `None` link
      matches no row and then violates the non-null link column. For a link
      already present the debug message slices `news_item.get('title', '')`,
      which raises when the title is bound to `None`. */
  function SaveStep(rows: seq<NewsRow>, d: NewsDict): (r: Option<seq<NewsRow>>)
    ensures r.Some? ==> d.link.Given? && !d.title.Null?
    ensures r.Some? ==> |rows| <= |r.value| <= |rows| + 1 && r.value[..|rows|] == rows
    ensures r.Some? && |r.value| > |rows| ==> r.value[|rows|].link == d.link.value
    ensures d.link.Given? && d.link.value !in NewsLinks(rows) ==>
      (r.Some? <==> RowOf(d, d.link.value).Some?)
      && (r.Some? ==> r.value == rows + [RowOf(d, d.link.value).value])
    ensures d.link.Given? && d.link.value in NewsLinks(rows) ==>
      (r.Some? <==> !d.title.Null?) && (r.Some? ==> r.value == rows)
  {
    match d.link
    case Missing => None
    case Null => None
    case Given(l) =>
      if l in NewsLinks(rows) then (if d.title.Null? then None else Some(rows))
      else
        match RowOf(d, l)
        case None => None
        case Some(row) =>
          assert (rows + [row])[..|rows|] == rows;
          Some(rows + [row])
  }

  /** The loop over the whole batch; `None` as soon as one iteration raises. */
  function SaveAll(rows: seq<NewsRow>, items: seq<NewsDict>): (r: Option<seq<NewsRow>>)
    ensures r.Some? ==> |rows| <= |r.value| <= |rows| + |items| && r.value[..|rows|] == rows
    decreases |items|
  {
    if items == [] then Some(rows)
    else
      match SaveStep(rows, items[0])
      case None => None
      case Some(next) =>
        var r := SaveAll(next, items[1..]);
        assert r.Some? ==> r.value[..|rows|] == r.value[..|next|][..|rows|];
        r
  }

  /** `save_news_to_db(db, news_items)`: commits and returns `True`, or rolls
      the whole batch back and returns `False`. */
  function SaveNewsToDb(store: seq<NewsRow>, items: seq<NewsDict>): (r: (bool, seq<NewsRow>))
    ensures !r.0 ==> r.1 == store
    ensures r.0 ==> |store| <= |r.1| <= |store| + |items| && r.1[..|store|] == store
    ensures UniqueKeys(store, NewsLink) && (forall i :: 0 <= i < |items| ==> Storable(items[i])) ==> r.0
  {
    var storable := UniqueKeys(store, NewsLink) && (forall i :: 0 <= i < |items| ==> Storable(items[i]));
    assert storable ==> SaveAll(store, items).Some? by {
      if storable {
        SaveAllSucceeds(store, items);
      }
    }
    match SaveAll(store, items)
    case None => (false, store)
    case Some(rows) => (true, rows)
  }

  /** A dict the save loop accepts whether or not its link is new. */
  predicate Storable(d: NewsDict) {
    d.link.Given? && RowOf(d, d.link.value).Some?
  }

  /** The links the dicts of a batch carry. */
  function LinksOf(items: seq<NewsDict>): set<string> {
    set i | 0 <= i < |items| && items[i].link.Given? :: items[i].link.value
  }

  /** One iteration that does not raise keeps the old rows in place, keeps
      links unique, and leaves the item's link present. */
  lemma SaveStepFacts(rows: seq<NewsRow>, d: NewsDict)
    requires UniqueKeys(rows, NewsLink)
    ensures SaveStep(rows, d).Some? ==>
      var next := SaveStep(rows, d).value;
      && d.link.Given? && !d.title.Null?
      && |rows| <= |next| && next[..|rows|] == rows
      && UniqueKeys(next, NewsLink)
      && NewsLinks(next) == NewsLinks(rows) + {d.link.value}
    ensures Storable(d) ==> SaveStep(rows, d).Some?
  {
    if SaveStep(rows, d).Some? {
      var l := d.link.value;
      if l !in NewsLinks(rows) {
        var row := RowOf(d, l).value;
        InsertIfAbsentKeys(rows, row, NewsLink);
        InsertAllUnique(rows, [row], NewsLink);
        assert InsertAll(rows, [row], NewsLink) == rows + [row] by {
          assert [row][1..] == [];
        }
        assert (rows + [row])[..|rows|] == rows;
      }
    }
  }

  /** The links of a batch are the first item's and the rest's. */
  lemma LinksOfCons(items: seq<NewsDict>)
    requires items != [] && items[0].link.Given?
    ensures LinksOf(items) == {items[0].link.value} + LinksOf(items[1..])
  {
    forall x | x in LinksOf(items)
      ensures x in {items[0].link.value} + LinksOf(items[1..])
    {
      var i :| 0 <= i < |items| && items[i].link.Given? && items[i].link.value == x;
      if i > 0 {
        assert items[i] == items[1..][i - 1];
      }
    }
    forall x | x in LinksOf(items[1..])
      ensures x in LinksOf(items)
    {
      var i :| 0 <= i < |items[1..]| && items[1..][i].link.Given? && items[1..][i].link.value == x;
      assert items[1..][i] == items[i + 1];
    }
  }

  /** What a successful batch does to the table: the old rows stay,
      unchanged and in place, links stay unique, every item carried a link,
      and the links afterwards are the old links together with the items'. */
  lemma {:induction false} SaveAllFacts(rows: seq<NewsRow>, items: seq<NewsDict>)
    requires UniqueKeys(rows, NewsLink)
    ensures SaveAll(rows, items).Some? ==>
      var r := SaveAll(rows, items).value;
      && |rows| <= |r| && r[..|rows|] == rows
      && UniqueKeys(r, NewsLink)
      && (forall i :: 0 <= i < |items| ==> items[i].link.Given? && !items[i].title.Null?)
      && NewsLinks(r) == NewsLinks(rows) + LinksOf(items)
    decreases |items|
  {
    if items != [] && SaveAll(rows, items).Some? {
      SaveStepFacts(rows, items[0]);
      var next := SaveStep(rows, items[0]).value;
      assert SaveAll(rows, items) == SaveAll(next, items[1..]);
      SaveAllFacts(next, items[1..]);
      var r := SaveAll(next, items[1..]).value;
      assert r[..|rows|] == r[..|next|][..|rows|];
      SavedItemsCarryLinks(rows, items);
      LinksOfCons(items);
    }
  }

  /** Every item of a batch that does not raise has a link and a title not
      bound to `None`. */
  lemma {:induction false} SavedItemsCarryLinks(rows: seq<NewsRow>, items: seq<NewsDict>)
    requires SaveAll(rows, items).Some?
    ensures forall i :: 0 <= i < |items| ==> items[i].link.Given? && !items[i].title.Null?
    decreases |items|
  {
    if items != [] {
      SavedItemsCarryLinks(SaveStep(rows, items[0]).value, items[1..]);
      forall i | 0 < i < |items|
        ensures items[i].link.Given? && !items[i].title.Null?
      {
        assert items[i] == items[1..][i - 1];
      }
    }
  }

  /** A batch of dicts that each carry a link and convert to a row is saved. */
  lemma {:induction false} SaveAllSucceeds(rows: seq<NewsRow>, items: seq<NewsDict>)
    requires UniqueKeys(rows, NewsLink)
    requires forall i :: 0 <= i < |items| ==> Storable(items[i])
    ensures SaveAll(rows, items).Some?
    decreases |items|
  {
    if items != [] {
      SaveStepFacts(rows, items[0]);
      forall i | 0 <= i < |items[1..]|
        ensures Storable(items[1..][i])
      {
        assert items[1..][i] == items[i + 1];
      }
      SaveAllSucceeds(SaveStep(rows, items[0]).value, items[1..]);
    }
  }

  /** A successful save, repeated with the same batch, succeeds again and
      inserts nothing: every link is present the second time. */
  lemma {:induction false} SaveTwiceInsertsNothing(store: seq<NewsRow>, items: seq<NewsDict>)
    requires UniqueKeys(store, NewsLink)
    requires SaveNewsToDb(store, items).0
    ensures SaveNewsToDb(SaveNewsToDb(store, items).1, items) == SaveNewsToDb(store, items)
  {
    SaveAllFacts(store, items);
    var r := SaveAll(store, items).value;
    SavePresent(r, items);
  }

  /** A batch whose links are all present saves nothing: it succeeds exactly
      when no item's title is bound to `None`, and otherwise the debug
      message of the first such item raises. */
  lemma {:induction false} SavePresent(rows: seq<NewsRow>, items: seq<NewsDict>)
    requires forall i :: 0 <= i < |items| ==> items[i].link.Given?
    requires LinksOf(items) <= NewsLinks(rows)
    ensures (forall i :: 0 <= i < |items| ==> !items[i].title.Null?) ==> SaveAll(rows, items) == Some(rows)
    ensures (exists i :: 0 <= i < |items| && items[i].title.Null?) ==> SaveAll(rows, items) == None
    decreases |items|
  {
    if items != [] {
      forall i | 0 <= i < |items[1..]|
        ensures items[1..][i].link.Given?
      {
        assert items[1..][i] == items[i + 1];
      }
      LinksOfCons(items);
      SavePresent(rows, items[1..]);
      if exists i :: 0 <= i < |items| && items[i].title.Null? {
        var i :| 0 <= i < |items| && items[i].title.Null?;
        if i > 0 {
          assert items[1..][i - 1] == items[i];
        }
      } else {
        forall i | 0 <= i < |items[1..]|
          ensures !items[1..][i].title.Null?
        {
          assert items[1..][i] == items[i + 1];
        }
      }
    }
  }

  // ---------------------------------------------------------------------
  // fetch_and_store_raw_news
  // ---------------------------------------------------------------------

  /** A row of the `rss_sources` table: the feed URL and the aggregator label it
      was registered under. */
  datatype RssSource = RssSource(url: string, aggregator: string)

  /** A row of the `raw_news` table. `aggregator` is the label of the source row the
      entry came from (reached through `rss_source_id`). */
  datatype RawRow = RawRow(title: string, description: Option<string>, link: string, published: Timestamp, aggregator: string)

  /** Why the entry loop of one feed stops early. */
  datatype RawError = BadDate(error: DateError) | NoLink

  function RawLink(r: RawRow): string { r.link }

  function RawLinks(rows: seq<RawRow>): set<string> {
    Keys(rows, RawLink)
  }

  /** The row an entry would be stored as, or why the loop stops at it: the
      publish time is converted first, then `entry.link` is read for the
      lookup, which raises when the entry has none. */
  function RawRowOf(e: FeedEntry, aggregator: string, now: Timestamp): (r: Result<RawRow, RawError>)
    ensures r.Ok? <==> PublishedAt(e, now).Ok? && e.link.Some?
    ensures PublishedAt(e, now).Err? ==> r == Err(BadDate(PublishedAt(e, now).error))
    ensures r.Ok? ==> r.value.link == e.link.value && r.value.aggregator == aggregator
                      && r.value.title == e.title.GetOr("") && r.value.description == Some(e.description.GetOr(""))
    ensures r.Ok? ==> r.value.published == PublishedAt(e, now).value
  {
    match PublishedAt(e, now)
    case Err(err) => Err(BadDate(err))
    case Ok(t) =>
      match e.link
      case None => Err(NoLink)
      case Some(l) => Ok(RawRow(e.title.GetOr(""), Some(e.description.GetOr("")), l, t, aggregator))
  }

  /** The entry loop of one feed, on the rows stored so far: each entry is
      looked up by link and added when absent, until an entry raises. */
  function StoreFeed(rows: seq<RawRow>, es: seq<FeedEntry>, aggregator: string, now: Timestamp): (r: seq<RawRow>)
    ensures |rows| <= |r| <= |rows| + |es| && r[..|rows|] == rows
    decreases |es|
  {
    if es == [] then rows
    else
      match RawRowOf(es[0], aggregator, now)
      case Err(_) => rows
      case Ok(row) =>
        var next := if row.link in RawLinks(rows) then rows else rows + [row];
        var r := StoreFeed(next, es[1..], aggregator, now);
        assert next[..|rows|] == rows;
        assert r[..|rows|] == r[..|next|][..|rows|];
        r
  }

  /** Whether the entry loop of a feed runs to its end, so that the commit
      after it is reached: no entry raises. */
  predicate Completes(es: seq<FeedEntry>, aggregator: string, now: Timestamp) {
    forall i :: 0 <= i < |es| ==> RawRowOf(es[i], aggregator, now).Ok?
  }

  /** Whether the iteration for a source reaches `db.commit()`. */
  predicate Commits(source: (RssSource, FetchCycle.FetchOutcome), now: Timestamp) {
    source.1.Delivered? && Completes(source.1.entries, source.0.aggregator, now)
  }

  /** The rows the session holds after some sources, committed or not:
      pending rows are flushed before each lookup, so later feeds find them. */
  function SessionRun(rows: seq<RawRow>, sources: seq<(RssSource, FetchCycle.FetchOutcome)>, now: Timestamp): (r: seq<RawRow>)
    ensures |rows| <= |r| && r[..|rows|] == rows
    decreases |sources|
  {
    if sources == [] then rows
    else
      var (src, outcome) := sources[0];
      var next := match outcome
        case Unreachable(_) => rows
        case Delivered(es) => StoreFeed(rows, es, src.aggregator, now);
      var r := SessionRun(next, sources[1..], now);
      assert r[..|rows|] == r[..|next|][..|rows|];
      r
  }

  /** The loop over the sources with the committed table and the session
      apart: a feed whose entry loop completes commits everything the
      session holds; the `except` branch neither commits nor rolls back, so
      a feed that raises leaves its rows pending for a later commit. */
  function RunFrom(committed: seq<RawRow>, session: seq<RawRow>, sources: seq<(RssSource, FetchCycle.FetchOutcome)>, now: Timestamp): seq<RawRow>
    decreases |sources|
  {
    if sources == [] then committed
    else
      var (src, outcome) := sources[0];
      match outcome
      case Unreachable(_) => RunFrom(committed, session, sources[1..], now)
      case Delivered(es) =>
        var next := StoreFeed(session, es, src.aggregator, now);
        if Completes(es, src.aggregator, now) then RunFrom(next, next, sources[1..], now)
        else RunFrom(committed, next, sources[1..], now)
  }

  /** The number of leading sources up to and including the last one that
      commits, 0 when none does. */
  function CommitPoint(sources: seq<(RssSource, FetchCycle.FetchOutcome)>, now: Timestamp): (k: nat)
    ensures k <= |sources|
    ensures k > 0 ==> Commits(sources[k - 1], now)
    ensures forall i :: k <= i < |sources| ==> !Commits(sources[i], now)
    decreases |sources|
  {
    if sources == [] then 0
    else
      var k := CommitPoint(sources[1..], now);
      assert forall i :: 1 <= i < |sources| ==> sources[i] == sources[1..][i - 1];
      if k > 0 then k + 1
      else if Commits(sources[0], now) then 1
      else 0
  }

  /** A run commits what the session holds at its last commit. */
  lemma {:induction false} RunFromCommitPoint(committed: seq<RawRow>, session: seq<RawRow>, sources: seq<(RssSource, FetchCycle.FetchOutcome)>, now: Timestamp)
    ensures var k := CommitPoint(sources, now);
      RunFrom(committed, session, sources, now) == if k == 0 then committed else SessionRun(session, sources[..k], now)
    decreases |sources|
  {
    if sources != [] {
      var (src, outcome) := sources[0];
      var k := CommitPoint(sources[1..], now);
      if k > 0 {
        assert sources[..k + 1][0] == sources[0] && sources[..k + 1][1..] == sources[1..][..k];
      } else {
        assert sources[..1][0] == sources[0] && sources[..1][1..] == [];
      }
      match outcome {
        case Unreachable(_) =>
          RunFromCommitPoint(committed, session, sources[1..], now);
        case Delivered(es) =>
          var next := StoreFeed(session, es, src.aggregator, now);
          if Completes(es, src.aggregator, now) {
            RunFromCommitPoint(next, next, sources[1..], now);
          } else {
            RunFromCommitPoint(committed, next, sources[1..], now);
          }
      }
    }
  }

  /** `fetch_and_store_raw_news(db)`: every source in turn; an unreachable
      one adds nothing, a reachable one stores its feed, and the table keeps
      what the session held at the last commit. Rows that feeds raising after
      that commit left pending are not committed by this function. When the
      last source commits, nothing the session holds is lost. */
  function FetchAndStoreRawNews(rows: seq<RawRow>, sources: seq<(RssSource, FetchCycle.FetchOutcome)>, now: Timestamp): (r: seq<RawRow>)
    ensures |rows| <= |r| && r[..|rows|] == rows
    ensures var k := CommitPoint(sources, now);
      r == if k == 0 then rows else SessionRun(rows, sources[..k], now)
    ensures sources != [] && Commits(sources[|sources| - 1], now) ==> r == SessionRun(rows, sources, now)
  {
    RunFromCommitPoint(rows, rows, sources, now);
    assert sources != [] && Commits(sources[|sources| - 1], now) ==> sources[..CommitPoint(sources, now)] == sources;
    RunFrom(rows, rows, sources, now)
  }

  /** The rows a feed's entries would be stored as, up to (not including) the
      first entry that raises; which entry that is does not depend on the
      table. */
  function RawBatch(es: seq<FeedEntry>, aggregator: string, now: Timestamp): seq<RawRow>
    decreases |es|
  {
    if es == [] then []
    else
      match RawRowOf(es[0], aggregator, now)
      case Err(_) => []
      case Ok(row) => [row] + RawBatch(es[1..], aggregator, now)
  }

  /** Storing a feed is inserting its batch row by row, each only if its link
      is absent. */
  lemma {:induction false} StoreFeedIsInsertAll(rows: seq<RawRow>, es: seq<FeedEntry>, aggregator: string, now: Timestamp)
    ensures StoreFeed(rows, es, aggregator, now) == InsertAll(rows, RawBatch(es, aggregator, now), RawLink)
    decreases |es|
  {
    if es != [] {
      match RawRowOf(es[0], aggregator, now) {
        case Err(_) =>
        case Ok(row) =>
          var next := if row.link in RawLinks(rows) then rows else rows + [row];
          StoreFeedIsInsertAll(next, es[1..], aggregator, now);
          var batch := RawBatch(es, aggregator, now);
          assert batch[0] == row && batch[1..] == RawBatch(es[1..], aggregator, now);
          assert InsertIfAbsent(rows, row, RawLink) == next;
      }
    }
  }

  /** The raw table only grows, keeps links unique, and afterwards holds the
      links of every entry stored before a feed's first failing entry. */
  lemma StoreFeedFacts(rows: seq<RawRow>, es: seq<FeedEntry>, aggregator: string, now: Timestamp)
    requires UniqueKeys(rows, RawLink)
    ensures var r := StoreFeed(rows, es, aggregator, now);
      && |rows| <= |r| && r[..|rows|] == rows
      && UniqueKeys(r, RawLink)
      && RawLinks(r) == RawLinks(rows) + Keys(RawBatch(es, aggregator, now), RawLink)
  {
    StoreFeedIsInsertAll(rows, es, aggregator, now);
    InsertAllGrows(rows, RawBatch(es, aggregator, now), RawLink);
    InsertAllUnique(rows, RawBatch(es, aggregator, now), RawLink);
  }

  /** The session after a run holds the rows before it as a prefix, with
      links still unique. */
  lemma {:induction false} SessionRunGrows(rows: seq<RawRow>, sources: seq<(RssSource, FetchCycle.FetchOutcome)>, now: Timestamp)
    requires UniqueKeys(rows, RawLink)
    ensures UniqueKeys(SessionRun(rows, sources, now), RawLink)
    ensures RawLinks(rows) <= RawLinks(SessionRun(rows, sources, now))
    decreases |sources|
  {
    if sources != [] {
      var (src, outcome) := sources[0];
      var next := match outcome
        case Unreachable(_) => rows
        case Delivered(es) => StoreFeed(rows, es, src.aggregator, now);
      if outcome.Delivered? {
        StoreFeedFacts(rows, outcome.entries, src.aggregator, now);
      }
      SessionRunGrows(next, sources[1..], now);
    }
  }

  /** The links a run stores: those of every entry before each reachable
      feed's first failing entry. */
  function RunLinks(sources: seq<(RssSource, FetchCycle.FetchOutcome)>, now: Timestamp): set<string>
    decreases |sources|
  {
    if sources == [] then {}
    else
      var (src, outcome) := sources[0];
      (match outcome
       case Unreachable(_) => {}
       case Delivered(es) => Keys(RawBatch(es, src.aggregator, now), RawLink))
      + RunLinks(sources[1..], now)
  }

  /** After a run the session holds every link the run stores, and a run
      whose links are all present already changes nothing. */
  lemma {:induction false} SessionRunLinks(rows: seq<RawRow>, sources: seq<(RssSource, FetchCycle.FetchOutcome)>, now: Timestamp)
    requires UniqueKeys(rows, RawLink)
    ensures RawLinks(SessionRun(rows, sources, now)) == RawLinks(rows) + RunLinks(sources, now)
    ensures RunLinks(sources, now) <= RawLinks(rows) ==> SessionRun(rows, sources, now) == rows
    decreases |sources|
  {
    if sources != [] {
      var (src, outcome) := sources[0];
      var next := match outcome
        case Unreachable(_) => rows
        case Delivered(es) => StoreFeed(rows, es, src.aggregator, now);
      if outcome.Delivered? {
        StoreFeedFacts(rows, outcome.entries, src.aggregator, now);
        if RunLinks(sources, now) <= RawLinks(rows) {
          StoreFeedIsInsertAll(rows, outcome.entries, src.aggregator, now);
          InsertAllPresent(rows, RawBatch(outcome.entries, src.aggregator, now), RawLink);
        }
      }
      SessionRunLinks(next, sources[1..], now);
    }
  }

  /** Running the sources twice over the same feed contents adds nothing to
      the session the second time. */
  lemma SessionRunIdempotent(rows: seq<RawRow>, sources: seq<(RssSource, FetchCycle.FetchOutcome)>, now: Timestamp)
    requires UniqueKeys(rows, RawLink)
    ensures SessionRun(SessionRun(rows, sources, now), sources, now) == SessionRun(rows, sources, now)
  {
    SessionRunGrows(rows, sources, now);
    SessionRunLinks(rows, sources, now);
    SessionRunLinks(SessionRun(rows, sources, now), sources, now);
  }

  /** The committed table keeps links unique and loses none. */
  lemma RawRunGrows(rows: seq<RawRow>, sources: seq<(RssSource, FetchCycle.FetchOutcome)>, now: Timestamp)
    requires UniqueKeys(rows, RawLink)
    ensures UniqueKeys(FetchAndStoreRawNews(rows, sources, now), RawLink)
    ensures RawLinks(rows) <= RawLinks(FetchAndStoreRawNews(rows, sources, now))
  {
    SessionRunGrows(rows, sources[..CommitPoint(sources, now)], now);
  }

  /** The committed table holds exactly the old links and those stored by
      the sources up to the last commit. */
  lemma RawRunLinks(rows: seq<RawRow>, sources: seq<(RssSource, FetchCycle.FetchOutcome)>, now: Timestamp)
    requires UniqueKeys(rows, RawLink)
    ensures RawLinks(FetchAndStoreRawNews(rows, sources, now))
            == RawLinks(rows) + RunLinks(sources[..CommitPoint(sources, now)], now)
  {
    SessionRunLinks(rows, sources[..CommitPoint(sources, now)], now);
  }

  /** Running the raw fetch twice over the same feed contents commits
      nothing new the second time. */
  lemma RawRunIdempotent(rows: seq<RawRow>, sources: seq<(RssSource, FetchCycle.FetchOutcome)>, now: Timestamp)
    requires UniqueKeys(rows, RawLink)
    ensures FetchAndStoreRawNews(FetchAndStoreRawNews(rows, sources, now), sources, now)
            == FetchAndStoreRawNews(rows, sources, now)
  {
    SessionRunIdempotent(rows, sources[..CommitPoint(sources, now)], now);
  }
}

=== FILE: relevance.dfy ===
/** The stock relevance filter, `filter_news_by_stock`
    (backend/app/services/news_service.py): five lower-case keywords are
    derived from the stock's name and symbol, and the stories whose lower-cased
    title or description contains one of them as a substring are kept, in
    order, each labelled with the symbol. */
module Relevance {
  import opened Wrappers
  import opened Text

  /** A news dict as the filter reads it. `title` and `description` may be
      missing (read as `''`) or bound to `None` (whose `lower()` raises); the
      filter writes `relatedStock`. */
  datatype Story = Story(title: Field<string>, description: Field<string>, link: Field<string>, relatedStock: Option<string>)

  /** The symbol and name used when the caller passes none (the environment
      variables `STOCK_SYMBOL` and `STOCK_NAME` unset). */
  const DefaultSymbol := "TATAELXSI.NS"
  const DefaultName := "Tata Elxsi"

  /** The search keywords, in the order the filter builds them. */
  function Keywords(symbol: string, name: string): (r: seq<string>)
    ensures |r| == 5 && r[2] == "tata elxsi" && r[3] == "elxsi"
    ensures forall i :: 0 <= i < |r| ==> forall j :: 0 <= j < |r[i]| ==> !IsUpper(r[i][j])
    ensures Lower(name) in r && Lower(BeforeFirst(symbol, '.')) in r
    ensures !Contains(Lower(symbol), ".ns") && !Contains(Lower(symbol), ".bo") ==> Lower(symbol) in r
  {
    RemoveAllAbsent(Lower(symbol), ".ns");
    RemoveAllAbsent(Lower(symbol), ".bo");
    LowerIsLower(name);
    LowerIsLower(symbol);
    LowerIsLower(BeforeFirst(symbol, '.'));
    var stripped := RemoveAll(RemoveAll(Lower(symbol), ".ns"), ".bo");
    RemoveAllKeepsLower(Lower(symbol), ".ns");
    RemoveAllKeepsLower(RemoveAll(Lower(symbol), ".ns"), ".bo");
    [Lower(name), stripped, "tata elxsi", "elxsi", Lower(BeforeFirst(symbol, '.'))]
  }

  /** Removing a pattern adds no character, so in particular no upper-case
      letter. */
  lemma {:induction false} RemoveAllKeepsLower(s: string, pat: string)
    requires |pat| > 0
    requires forall j :: 0 <= j < |s| ==> !IsUpper(s[j])
    ensures forall j :: 0 <= j < |RemoveAll(s, pat)| ==> !IsUpper(RemoveAll(s, pat)[j])
    decreases |s|
  {
    if |s| > 0 {
      if StartsWith(s, pat) {
        RemoveAllKeepsLower(s[|pat|..], pat);
      } else {
        RemoveAllKeepsLower(s[1..], pat);
        var t := RemoveAll(s[1..], pat);
        forall j | 0 <= j < |RemoveAll(s, pat)|
          ensures !IsUpper(RemoveAll(s, pat)[j])
        {
          if j > 0 {
            assert RemoveAll(s, pat)[j] == t[j - 1];
          }
        }
      }
    }
  }

  /** A field the filter can lower-case without raising. */
  predicate Readable(f: Field<string>) {
    !f.Null?
  }

  /** `news_item.get(key, '').lower()` for a readable field. */
  function Lowered(f: Field<string>): string
    requires Readable(f)
  {
    if f.Given? then Lower(f.value) else ""
  }

  /** Both fields the filter reads are readable. */
  predicate Scannable(st: Story) {
    Readable(st.title) && Readable(st.description)
  }

  predicate AllScannable(items: seq<Story>) {
    forall i :: 0 <= i < |items| ==> Scannable(items[i])
  }

  /** Some keyword occurs in the lower-cased title or description. */
  predicate IsRelated(st: Story, keywords: seq<string>)
    requires Scannable(st)
  {
    exists k :: k in keywords && (Contains(Lowered(st.title), k) || Contains(Lowered(st.description), k))
  }

  /** The lower-cased title or description of a story contains `word`. */
  predicate Mentions(st: Story, word: string)
    requires Scannable(st)
  {
    Contains(Lowered(st.title), word) || Contains(Lowered(st.description), word)
  }

  /** The kept story, labelled with the symbol. */
  function Tag(st: Story, symbol: string): Story {
    st.(relatedStock := Some(symbol))
  }

  /** The related stories of `items`, in order, each labelled. */
  function KeepRelated(items: seq<Story>, keywords: seq<string>, symbol: string): seq<Story>
    requires AllScannable(items)
  {
    if items == [] then []
    else
      var last := items[|items| - 1];
      KeepRelated(items[..|items| - 1], keywords, symbol)
      + (if IsRelated(last, keywords) then [Tag(last, symbol)] else [])
  }

  /** The positions of the related stories of `items`, in increasing order. */
  function RelatedIndices(items: seq<Story>, keywords: seq<string>): seq<nat>
    requires AllScannable(items)
  {
    if items == [] then []
    else
      RelatedIndices(items[..|items| - 1], keywords)
      + (if IsRelated(items[|items| - 1], keywords) then [|items| - 1] else [])
  }

  /** `filter_news_by_stock(news_items, stock_symbol, stock_name)`: `[]` when a
      title or description is `None` (the lowering raises and the handler
      returns an empty list), otherwise the related stories in order. */
  function FilterNewsByStock(items: seq<Story>, symbol: Option<string>, name: Option<string>): (r: seq<Story>)
    ensures !AllScannable(items) ==> r == []
    ensures |r| <= |items|
    ensures forall j :: 0 <= j < |r| ==> r[j].relatedStock == Some(symbol.GetOr(DefaultSymbol))
    ensures AllScannable(items) ==>
      var s := symbol.GetOr(DefaultSymbol);
      var kws := Keywords(s, name.GetOr(DefaultName));
      var idx := RelatedIndices(items, kws);
      && |r| == |idx|
      && (forall j :: 0 <= j < |idx| ==> idx[j] < |items| && r[j] == Tag(items[idx[j]], s))
      && (forall a, b :: 0 <= a < b < |idx| ==> idx[a] < idx[b])
      && (forall i :: 0 <= i < |items| ==> (i in idx <==> IsRelated(items[i], kws)))
    ensures AllScannable(items) ==>
      forall i :: 0 <= i < |items|
        && (Mentions(items[i], Lower(name.GetOr(DefaultName)))
            || Mentions(items[i], Lower(BeforeFirst(symbol.GetOr(DefaultSymbol), '.'))))
        ==> Tag(items[i], symbol.GetOr(DefaultSymbol)) in r
  {
    var s := symbol.GetOr(DefaultSymbol);
    if AllScannable(items) then
      KeepRelatedFacts(items, Keywords(s, name.GetOr(DefaultName)), s);
      KeepRelatedIsSubsequence(items, Keywords(s, name.GetOr(DefaultName)), s);
      KeepRelated(items, Keywords(s, name.GetOr(DefaultName)), s)
    else []
  }

  /** The kept stories are at most the input's, each labelled with the symbol. */
  lemma {:induction false} KeepRelatedFacts(items: seq<Story>, keywords: seq<string>, symbol: string)
    requires AllScannable(items)
    ensures |KeepRelated(items, keywords, symbol)| <= |items|
    ensures forall j :: 0 <= j < |KeepRelated(items, keywords, symbol)| ==>
      KeepRelated(items, keywords, symbol)[j].relatedStock == Some(symbol)
  {
    if items != [] {
      KeepRelatedFacts(items[..|items| - 1], keywords, symbol);
    }
  }

  /** The filter keeps exactly the related stories, as an order-preserving
      subsequence: the `j`-th kept story is the labelled story at the `j`-th
      related position, the positions increase, and a position is listed
      exactly when its story is related. */
  lemma {:induction false} KeepRelatedIsSubsequence(items: seq<Story>, keywords: seq<string>, symbol: string)
    requires AllScannable(items)
    ensures var r, idx := KeepRelated(items, keywords, symbol), RelatedIndices(items, keywords);
      && |r| == |idx|
      && (forall j :: 0 <= j < |idx| ==> idx[j] < |items| && r[j] == Tag(items[idx[j]], symbol))
      && (forall a, b :: 0 <= a < b < |idx| ==> idx[a] < idx[b])
      && (forall i :: 0 <= i < |items| ==> (i in idx <==> IsRelated(items[i], keywords)))
  {
    KeptAreTagged(items, keywords, symbol);
    IndicesIncrease(items, keywords);
    IndicesAreRelated(items, keywords);
  }

  lemma {:induction false} KeptAreTagged(items: seq<Story>, keywords: seq<string>, symbol: string)
    requires AllScannable(items)
    ensures var r, idx := KeepRelated(items, keywords, symbol), RelatedIndices(items, keywords);
      |r| == |idx| && forall j :: 0 <= j < |idx| ==> idx[j] < |items| && r[j] == Tag(items[idx[j]], symbol)
  {
    if items != [] {
      var init, last := items[..|items| - 1], items[|items| - 1];
      KeptAreTagged(init, keywords, symbol);
      var r0, i0 := KeepRelated(init, keywords, symbol), RelatedIndices(init, keywords);
      var r, idx := KeepRelated(items, keywords, symbol), RelatedIndices(items, keywords);
      if IsRelated(last, keywords) {
        assert r == r0 + [Tag(last, symbol)] && idx == i0 + [|items| - 1];
        forall j | 0 <= j < |idx|
          ensures idx[j] < |items| && r[j] == Tag(items[idx[j]], symbol)
        {
          if j < |i0| {
            assert r[j] == r0[j] && idx[j] == i0[j];
            assert init[i0[j]] == items[i0[j]];
          }
        }
      } else {
        assert r == r0 && idx == i0;
        forall j | 0 <= j < |idx|
          ensures idx[j] < |items| && r[j] == Tag(items[idx[j]], symbol)
        {
          assert init[i0[j]] == items[i0[j]];
        }
      }
    }
  }

  lemma {:induction false} IndicesIncrease(items: seq<Story>, keywords: seq<string>)
    requires AllScannable(items)
    ensures forall j :: 0 <= j < |RelatedIndices(items, keywords)| ==> RelatedIndices(items, keywords)[j] < |items|
    ensures forall a, b :: 0 <= a < b < |RelatedIndices(items, keywords)| ==>
      RelatedIndices(items, keywords)[a] < RelatedIndices(items, keywords)[b]
  {
    if items != [] {
      var init := items[..|items| - 1];
      IndicesIncrease(init, keywords);
    }
  }

  lemma {:induction false} IndicesAreRelated(items: seq<Story>, keywords: seq<string>)
    requires AllScannable(items)
    ensures forall i :: 0 <= i < |items| ==> (i in RelatedIndices(items, keywords) <==> IsRelated(items[i], keywords))
  {
    if items != [] {
      var init, n := items[..|items| - 1], |items| - 1;
      IndicesAreRelated(init, keywords);
      IndicesIncrease(init, keywords);
      var i0 := RelatedIndices(init, keywords);
      assert n !in i0;
      forall i | 0 <= i < |items|
        ensures i in RelatedIndices(items, keywords) <==> IsRelated(items[i], keywords)
      {
        if i < n {
          assert init[i] == items[i];
        }
      }
    }
  }

  /** Labelling changes nothing the filter reads. */
  lemma TagKeepsRelated(st: Story, symbol: string, keywords: seq<string>)
    requires Scannable(st)
    ensures Scannable(Tag(st, symbol))
    ensures IsRelated(Tag(st, symbol), keywords) <==> IsRelated(st, keywords)
  {
  }

  /** Filtering an already filtered list again, for the same stock, returns it
      unchanged. */
  lemma {:induction false} KeepRelatedIdempotent(items: seq<Story>, keywords: seq<string>, symbol: string)
    requires AllScannable(items)
    ensures AllScannable(KeepRelated(items, keywords, symbol))
    ensures KeepRelated(KeepRelated(items, keywords, symbol), keywords, symbol) == KeepRelated(items, keywords, symbol)
  {
    if items != [] {
      var init, last := items[..|items| - 1], items[|items| - 1];
      KeepRelatedIdempotent(init, keywords, symbol);
      var r0 := KeepRelated(init, keywords, symbol);
      var r := KeepRelated(items, keywords, symbol);
      if IsRelated(last, keywords) {
        var t := Tag(last, symbol);
        TagKeepsRelated(last, symbol, keywords);
        assert r == r0 + [t];
        assert AllScannable(r) by {
          forall j | 0 <= j < |r|
            ensures Scannable(r[j])
          {
            if j < |r0| {
              assert r[j] == r0[j];
            }
          }
        }
        assert r[..|r| - 1] == r0;
        assert Tag(t, symbol) == t;
        assert KeepRelated(r, keywords, symbol) == KeepRelated(r0, keywords, symbol) + [Tag(t, symbol)];
      } else {
        assert r == r0;
      }
    }
  }

  /** `FilterNewsByStock` is idempotent for a fixed stock. */
  lemma FilterIdempotent(items: seq<Story>, symbol: Option<string>, name: Option<string>)
    ensures FilterNewsByStock(FilterNewsByStock(items, symbol, name), symbol, name) == FilterNewsByStock(items, symbol, name)
  {
    if AllScannable(items) {
      var s := symbol.GetOr(DefaultSymbol);
      KeepRelatedIdempotent(items, Keywords(s, name.GetOr(DefaultName)), s);
    }
  }

  /** The keyword `'tata elxsi'` never decides anything: a story is related
      exactly when it is related under the other four keywords. */
  lemma TataElxsiSubsumed(st: Story, symbol: string, name: string)
    requires Scannable(st)
    ensures var kws := Keywords(symbol, name);
      IsRelated(st, kws) <==> IsRelated(st, [kws[0], kws[1], kws[3], kws[4]])
  {
    var kws := Keywords(symbol, name);
    assert OccursAt("tata elxsi", "elxsi", 5);
    assert Contains("tata elxsi", "elxsi");
    if IsRelated(st, kws) {
      var k :| k in kws && (Contains(Lowered(st.title), k) || Contains(Lowered(st.description), k));
      if k == "tata elxsi" {
        if Contains(Lowered(st.title), k) {
          ContainsTransitive(Lowered(st.title), k, "elxsi");
        } else {
          ContainsTransitive(Lowered(st.description), k, "elxsi");
        }
        assert "elxsi" in [kws[0], kws[1], kws[3], kws[4]];
      } else {
        assert k in [kws[0], kws[1], kws[3], kws[4]];
      }
    }
  }

  /** A symbol that is all `.ns`/`.bo` suffixes (say `.NS`) yields the empty
      keyword, which every string contains: every scannable story is kept. */
  lemma EmptyKeywordKeepsAll(st: Story, symbol: string, name: string)
    requires Scannable(st)
    requires RemoveAll(RemoveAll(Lower(symbol), ".ns"), ".bo") == ""
    ensures IsRelated(st, Keywords(symbol, name))
  {
    assert OccursAt(Lowered(st.title), "", 0);
    assert "" in Keywords(symbol, name);
  }
}

=== FILE: seqs.dfy ===
/** Concatenating a per-element part over a sequence, as the services do when
    they run one loop over the configured sources and append what each
    iteration yields. */
module Seqs {
  import opened Wrappers

  /** The concatenation of `f(x)` over the elements `x` of `xs`, in order. */
  function FlatMap<T, U>(xs: seq<T>, f: T -> seq<U>): seq<U> {
    if xs == [] then [] else FlatMap(xs[..|xs| - 1], f) + f(xs[|xs| - 1])
  }

  /** The parts of a split sequence concatenate to the parts of the whole. */
  lemma {:induction false} FlatMapConcat<T, U>(a: seq<T>, b: seq<T>, f: T -> seq<U>)
    ensures FlatMap(a + b, f) == FlatMap(a, f) + FlatMap(b, f)
    decreases |b|
  {
    if b == [] {
      assert a + b == a;
    } else {
      var b0 := b[..|b| - 1];
      assert (a + b)[..|a + b| - 1] == a + b0;
      FlatMapConcat(a, b0, f);
    }
  }

  /** The parts around one element: what comes before it, its own part, and
      what comes after it. */
  lemma FlatMapAround<T, U>(before: seq<T>, x: T, after: seq<T>, f: T -> seq<U>)
    ensures FlatMap(before + [x] + after, f) == FlatMap(before, f) + f(x) + FlatMap(after, f)
  {
    FlatMapConcat(before + [x], after, f);
    FlatMapConcat(before, [x], f);
    assert [x][..0] == [];
  }

  /** `f` applied to every element of `xs`, in order. */
  function Map<T, U>(xs: seq<T>, f: T -> U): (r: seq<U>)
    ensures |r| == |xs|
  {
    if xs == [] then [] else Map(xs[..|xs| - 1], f) + [f(xs[|xs| - 1])]
  }

  /** Element `i` of the image is the image of element `i`. */
  lemma {:induction false} MapIndex<T, U>(xs: seq<T>, f: T -> U)
    ensures forall i :: 0 <= i < |xs| ==> Map(xs, f)[i] == f(xs[i])
  {
    if xs != [] {
      MapIndex(xs[..|xs| - 1], f);
    }
  }

  /** Element `i` of the image, for one `i`. */
  lemma MapAt<T, U>(xs: seq<T>, f: T -> U, i: nat)
    requires i < |xs|
    ensures Map(xs, f)[i] == f(xs[i])
  {
    MapIndex(xs, f);
  }

  /** Mapping distributes over concatenation. */
  lemma {:induction false} MapConcat<T, U>(a: seq<T>, b: seq<T>, f: T -> U)
    ensures Map(a + b, f) == Map(a, f) + Map(b, f)
    decreases |b|
  {
    if b == [] {
      assert a + b == a;
    } else {
      var b0 := b[..|b| - 1];
      assert (a + b)[..|a + b| - 1] == a + b0;
      MapConcat(a, b0, f);
    }
  }

  /** The values of the leading `Ok`s of `rs`, up to the first `Err`. */
  function OkPrefix<T, E>(rs: seq<Result<T, E>>): seq<T> {
    if rs == [] then []
    else
      match rs[0]
      case Err(_) => []
      case Ok(v) => [v] + OkPrefix(rs[1..])
  }

  /** The error of the first `Err` in `rs`, if any. */
  function FirstErr<T, E>(rs: seq<Result<T, E>>): Option<E> {
    if rs == [] then None
    else
      match rs[0]
      case Err(e) => Some(e)
      case Ok(_) => FirstErr(rs[1..])
  }

  /** The leading `Ok`s are exactly the results before the first `Err`: all of
      them when there is none, and then the `Err` itself comes next. */
  lemma {:induction false} OkPrefixFacts<T, E>(rs: seq<Result<T, E>>)
    ensures |OkPrefix(rs)| <= |rs|
    ensures FirstErr(rs).None? <==> |OkPrefix(rs)| == |rs|
    ensures forall j :: 0 <= j < |OkPrefix(rs)| ==> rs[j] == Ok(OkPrefix(rs)[j])
    ensures FirstErr(rs).Some? ==> rs[|OkPrefix(rs)|] == Err(FirstErr(rs).value)
  {
    if rs != [] {
      OkPrefixFacts(rs[1..]);
      if rs[0].Ok? {
        var p := OkPrefix(rs[1..]);
        forall j | 0 <= j < |OkPrefix(rs)|
          ensures rs[j] == Ok(OkPrefix(rs)[j])
        {
          if j > 0 {
            assert rs[j] == rs[1..][j - 1];
          }
        }
        if FirstErr(rs).Some? {
          assert rs[|OkPrefix(rs)|] == rs[1..][|p|];
        }
      }
    }
  }
}

=== FILE: store.dfy ===
/** A database table as the services use it: rows in insertion order, looked
    up by a key (a link, or a title and a date), and extended only by
    inserting a row whose key is not present yet. Existing rows are never
    updated. */
module Store {

  /** The keys present in `rows`. */
  function Keys<R, K>(rows: seq<R>, key: R -> K): set<K> {
    set i | 0 <= i < |rows| :: key(rows[i])
  }

  /** No two rows share a key. */
  predicate UniqueKeys<R, K(==)>(rows: seq<R>, key: R -> K) {
    forall i, j :: 0 <= i < j < |rows| ==> key(rows[i]) != key(rows[j])
  }

  /** Query by key, then add the row only when nothing was found. */
  function InsertIfAbsent<R, K(==)>(rows: seq<R>, row: R, key: R -> K): (r: seq<R>)
    ensures key(row) in Keys(rows, key) ==> r == rows
    ensures key(row) !in Keys(rows, key) ==> r == rows + [row]
  {
    if key(row) in Keys(rows, key) then rows else rows + [row]
  }

  /** Inserts the rows of `batch` one after the other, each only if absent. */
  function InsertAll<R, K(==)>(rows: seq<R>, batch: seq<R>, key: R -> K): seq<R>
    decreases |batch|
  {
    if batch == [] then rows else InsertAll(InsertIfAbsent(rows, batch[0], key), batch[1..], key)
  }

  /** The keys after one insertion. */
  lemma InsertIfAbsentKeys<R, K>(rows: seq<R>, row: R, key: R -> K)
    ensures Keys(InsertIfAbsent(rows, row, key), key) == Keys(rows, key) + {key(row)}
  {
    if key(row) !in Keys(rows, key) {
      var r := rows + [row];
      assert key(r[|rows|]) in Keys(r, key);
      forall k | k in Keys(rows, key)
        ensures k in Keys(r, key)
      {
        var i :| 0 <= i < |rows| && key(rows[i]) == k;
        assert r[i] == rows[i];
      }
    }
  }

  /** The table only grows: the old rows stay, unchanged and in place, and
      the keys afterwards are the old keys together with the batch's keys. */
  lemma {:induction false} InsertAllGrows<R, K>(rows: seq<R>, batch: seq<R>, key: R -> K)
    ensures |rows| <= |InsertAll(rows, batch, key)|
    ensures InsertAll(rows, batch, key)[..|rows|] == rows
    ensures Keys(InsertAll(rows, batch, key), key) == Keys(rows, key) + Keys(batch, key)
    decreases |batch|
  {
    if batch != [] {
      var next := InsertIfAbsent(rows, batch[0], key);
      InsertAllGrows(next, batch[1..], key);
      InsertIfAbsentKeys(rows, batch[0], key);
      var r := InsertAll(next, batch[1..], key);
      assert next[..|rows|] == rows;
      assert r[..|rows|] == next[..|next|][..|rows|];
      assert batch == [batch[0]] + batch[1..];
      KeysConcat([batch[0]], batch[1..], key);
    }
  }

  /** The keys of a concatenation. */
  lemma KeysConcat<R, K>(a: seq<R>, b: seq<R>, key: R -> K)
    ensures Keys(a + b, key) == Keys(a, key) + Keys(b, key)
  {
    var ab := a + b;
    forall k | k in Keys(ab, key)
      ensures k in Keys(a, key) + Keys(b, key)
    {
      var i :| 0 <= i < |ab| && key(ab[i]) == k;
      if i >= |a| {
        assert b[i - |a|] == ab[i];
      }
    }
    forall k | k in Keys(a, key) + Keys(b, key)
      ensures k in Keys(ab, key)
    {
      if k in Keys(a, key) {
        var i :| 0 <= i < |a| && key(a[i]) == k;
        assert ab[i] == a[i];
      } else {
        var i :| 0 <= i < |b| && key(b[i]) == k;
        assert ab[|a| + i] == b[i];
      }
    }
  }

  /** Insert-if-absent keeps keys unique. */
  lemma {:induction false} InsertAllUnique<R, K>(rows: seq<R>, batch: seq<R>, key: R -> K)
    requires UniqueKeys(rows, key)
    ensures UniqueKeys(InsertAll(rows, batch, key), key)
    decreases |batch|
  {
    if batch != [] {
      var next := InsertIfAbsent(rows, batch[0], key);
      if key(batch[0]) !in Keys(rows, key) {
        forall i, j | 0 <= i < j < |next|
          ensures key(next[i]) != key(next[j])
        {
          if j == |rows| {
            assert key(next[i]) == key(rows[i]) && key(rows[i]) in Keys(rows, key);
          }
        }
      }
      InsertAllUnique(next, batch[1..], key);
    }
  }

  /** A batch whose keys are all present already inserts nothing. */
  lemma {:induction false} InsertAllPresent<R, K>(rows: seq<R>, batch: seq<R>, key: R -> K)
    requires Keys(batch, key) <= Keys(rows, key)
    ensures InsertAll(rows, batch, key) == rows
    decreases |batch|
  {
    if batch != [] {
      assert key(batch[0]) in Keys(batch, key);
      assert batch == [batch[0]] + batch[1..];
      KeysConcat([batch[0]], batch[1..], key);
      InsertAllPresent(rows, batch[1..], key);
    }
  }

  /** Inserting the same batch a second time changes nothing. */
  lemma InsertAllIdempotent<R, K>(rows: seq<R>, batch: seq<R>, key: R -> K)
    ensures InsertAll(InsertAll(rows, batch, key), batch, key) == InsertAll(rows, batch, key)
  {
    InsertAllGrows(rows, batch, key);
    InsertAllPresent(InsertAll(rows, batch, key), batch, key);
  }
}

=== FILE: streaming.dfy ===
/** The streaming exact deduper of `fetch_news_from_all_sources`
    (backend/app/services/news_service.py): an insertion-ordered map `seen`
    from dedup key to accumulator, folded over the normalised items of one
    fetch cycle. The map is a sequence of (key, accumulator) pairs.

    Next to the fold step (`Open`, `Fold`, `Absorb`) this module gives a
    reference description of what the map holds after any sequence of items,
    read off the whole sequence at once (`KeysInOrder`, `Expected`), and
    proves that each step keeps the map equal to it (`Represents`). */
module Streaming {
  import opened Wrappers
  import opened Entries

  /** The dict kept per dedup key. */
  datatype Accumulator = Accumulator(
    title: string,
    description: string,
    link: string,
    published: Clock.Timestamp,
    sources: seq<string>,
    additionalInfo: Option<Info>)

  type Seen = seq<(string, Accumulator)>

  /** The accumulator created on the first sighting of a key. */
  function Open(x: Keyed): Accumulator {
    var item := x.item;
    Accumulator(item.title, item.description, item.link, item.published, [item.source], None)
  }

  /** A repeat sighting: the source name is appended; `additionalInfo` is
      replaced when the new description is strictly longer than the stored
      (first) description, which itself is never replaced. */
  function Fold(acc: Accumulator, x: Keyed): Accumulator {
    var item := x.item;
    acc.(sources := acc.sources + [item.source],
         additionalInfo :=
           if |item.description| > |acc.description| then Some(Info(item.source, item.description))
           else acc.additionalInfo)
  }

  // ---------------------------------------------------------------------
  // Reference description, read off the whole encounter-ordered sequence.
  // ---------------------------------------------------------------------

  /** The distinct dedup keys of `items`, in order of first sighting. */
  function KeysInOrder(items: seq<Keyed>): seq<string> {
    if items == [] then []
    else
      var ks := KeysInOrder(items[..|items| - 1]);
      var k := items[|items| - 1].key;
      if k in ks then ks else ks + [k]
  }

  /** The first item with key `k`, if any. */
  function FirstWith(items: seq<Keyed>, k: string): Option<NewsItem> {
    if items == [] then None
    else
      var f := FirstWith(items[..|items| - 1], k);
      if f.Some? then f
      else if items[|items| - 1].key == k then Some(items[|items| - 1].item)
      else None
  }

  /** The source names of all items with key `k`, in encounter order,
      repetitions kept. */
  function SourcesWith(items: seq<Keyed>, k: string): seq<string> {
    if items == [] then []
    else
      var last := items[|items| - 1];
      SourcesWith(items[..|items| - 1], k) + (if last.key == k then [last.item.source] else [])
  }

  /** The last item with key `k` whose description is longer than `n`
      characters, as an `Info`. */
  function LastRicher(items: seq<Keyed>, k: string, n: nat): Option<Info> {
    if items == [] then None
    else
      var last := items[|items| - 1];
      if last.key == k && |last.item.description| > n then Some(Info(last.item.source, last.item.description))
      else LastRicher(items[..|items| - 1], k, n)
  }

  /** The accumulator key `k` should have after `items`: the first item's base
      fields, every matching source, and the last item richer than the first. */
  function Expected(items: seq<Keyed>, k: string): Accumulator
    requires FirstWith(items, k).Some?
  {
    var first := FirstWith(items, k).value;
    Accumulator(first.title, first.description, first.link, first.published,
                SourcesWith(items, k), LastRicher(items, k, |first.description|))
  }

  /** `seen` is exactly the map the reference description prescribes. */
  predicate Represents(seen: Seen, items: seq<Keyed>) {
    && |seen| == |KeysInOrder(items)|
    && (forall j :: 0 <= j < |seen| ==> seen[j].0 == KeysInOrder(items)[j])
    && (forall j :: 0 <= j < |seen| ==>
          FirstWith(items, seen[j].0).Some? && seen[j].1 == Expected(items, seen[j].0))
  }

  /** The map the reference description prescribes after `items`: one entry
      per distinct key, in order of first sighting. */
  function Reference(items: seq<Keyed>): Seen {
    var ks := KeysInOrder(items);
    KeysInOrderFacts(items);
    seq(|ks|, j requires 0 <= j < |ks| => (ks[j], Expected(items, ks[j])))
  }

  /** A map represents `items` exactly when it is the reference map. */
  lemma RepresentsReference(seen: Seen, items: seq<Keyed>)
    ensures Represents(seen, items) <==> seen == Reference(items)
  {
    KeysInOrderFacts(items);
    if Represents(seen, items) {
      var r := Reference(items);
      forall j | 0 <= j < |seen|
        ensures seen[j] == r[j]
      {
      }
    }
  }

  // ---------------------------------------------------------------------
  // Facts about the reference description.
  // ---------------------------------------------------------------------

  /** The key list has no repetitions, and a key is listed exactly when it
      has a first item (by `FirstWithIsFirst`, when some item carries it). */
  lemma {:induction false} KeysInOrderFacts(items: seq<Keyed>)
    ensures forall a, b :: 0 <= a < b < |KeysInOrder(items)| ==> KeysInOrder(items)[a] != KeysInOrder(items)[b]
    ensures forall k :: k in KeysInOrder(items) <==> FirstWith(items, k).Some?
  {
    if items != [] {
      KeysInOrderFacts(items[..|items| - 1]);
    }
  }

  /** `FirstWith` finds the item at the smallest index carrying the key. */
  lemma {:induction false} FirstWithIsFirst(items: seq<Keyed>, k: string)
    ensures FirstWith(items, k).None? <==> forall i :: 0 <= i < |items| ==> items[i].key != k
    ensures FirstWith(items, k).Some? ==>
      exists i :: 0 <= i < |items| && items[i].item == FirstWith(items, k).value && items[i].key == k
        && forall j :: 0 <= j < i ==> items[j].key != k
  {
    if items != [] {
      var init := items[..|items| - 1];
      FirstWithIsFirst(init, k);
      assert forall i :: 0 <= i < |init| ==> init[i] == items[i];
      if FirstWith(init, k).Some? {
        var i :| 0 <= i < |init| && init[i].item == FirstWith(init, k).value && init[i].key == k
          && forall j :: 0 <= j < i ==> init[j].key != k;
        assert items[i].item == FirstWith(items, k).value;
      } else if items[|items| - 1].key == k {
        assert items[|items| - 1].item == FirstWith(items, k).value;
      }
    }
  }

  /** An absent key has no sources and no richer report. */
  lemma {:induction false} AbsentKey(items: seq<Keyed>, k: string, n: nat)
    requires FirstWith(items, k).None?
    ensures SourcesWith(items, k) == []
    ensures LastRicher(items, k, n).None?
  {
    if items != [] {
      AbsentKey(items[..|items| - 1], k, n);
    }
  }

  /** Appending an item with another key changes nothing about key `k`. */
  lemma ExpectedOtherKey(items: seq<Keyed>, x: Keyed, k: string)
    requires x.key != k
    ensures FirstWith(items + [x], k) == FirstWith(items, k)
    ensures FirstWith(items, k).Some? ==> Expected(items + [x], k) == Expected(items, k)
  {
    assert (items + [x])[..|items|] == items;
  }

  /** Appending an item of a key already seen folds it into the accumulator. */
  lemma ExpectedRepeat(items: seq<Keyed>, x: Keyed)
    requires FirstWith(items, x.key).Some?
    ensures FirstWith(items + [x], x.key) == FirstWith(items, x.key)
    ensures Expected(items + [x], x.key) == Fold(Expected(items, x.key), x)
  {
    assert (items + [x])[..|items|] == items;
  }

  /** Appending the first item of a key opens a fresh accumulator. */
  lemma ExpectedNew(items: seq<Keyed>, x: Keyed)
    requires FirstWith(items, x.key).None?
    ensures FirstWith(items + [x], x.key) == Some(x.item)
    ensures Expected(items + [x], x.key) == Open(x)
  {
    assert (items + [x])[..|items|] == items;
    AbsentKey(items, x.key, |x.item.description|);
  }

  // ---------------------------------------------------------------------
  // The fold step.
  // ---------------------------------------------------------------------

  /** One iteration of the entry loop: look the key up in `seen`, then merge
      into the accumulator found or append a new one. */
  method Absorb(seen: Seen, x: Keyed, ghost items: seq<Keyed>) returns (next: Seen)
    requires Represents(seen, items)
    ensures Represents(next, items + [x])
  {
    var k := x.key;
    var i := 0;
    while i < |seen| && seen[i].0 != k
      invariant 0 <= i <= |seen|
      invariant forall j :: 0 <= j < i ==> seen[j].0 != k
    {
      i := i + 1;
    }
    var all := items + [x];
    assert all[..|all| - 1] == items;
    KeysInOrderFacts(items);
    if i < |seen| {
      next := seen[i := (k, Fold(seen[i].1, x))];
      ExpectedRepeat(items, x);
      assert KeysInOrder(all) == KeysInOrder(items);
      forall j | 0 <= j < |next|
        ensures FirstWith(all, next[j].0).Some? && next[j].1 == Expected(all, next[j].0)
      {
        if j != i {
          ExpectedOtherKey(items, x, next[j].0);
        }
      }
    } else {
      next := seen + [(k, Open(x))];
      assert k !in KeysInOrder(items);
      ExpectedNew(items, x);
      assert KeysInOrder(all) == KeysInOrder(items) + [k];
      forall j | 0 <= j < |next|
        ensures FirstWith(all, next[j].0).Some? && next[j].1 == Expected(all, next[j].0)
      {
        if j < |seen| {
          ExpectedOtherKey(items, x, next[j].0);
        }
      }
    }
  }

  // ---------------------------------------------------------------------
  // Properties of the accumulators.
  // ---------------------------------------------------------------------

  /** The sources list distributes over concatenation: splitting the run into
      two halves splits every key's sources accordingly, so a key's sources
      are its items' source names in encounter order, repetitions kept. */
  lemma {:induction false} SourcesWithConcat(a: seq<Keyed>, b: seq<Keyed>, k: string)
    ensures SourcesWith(a + b, k) == SourcesWith(a, k) + SourcesWith(b, k)
    decreases |b|
  {
    if b == [] {
      assert a + b == a;
    } else {
      var b0 := b[..|b| - 1];
      assert (a + b)[..|a + b| - 1] == a + b0;
      SourcesWithConcat(a, b0, k);
    }
  }

  /** First writer wins: once a key has been seen, later items never change
      its accumulator's title, description, link or publish time, and only
      extend its sources. */
  lemma {:induction false} FirstWriterWins(items: seq<Keyed>, more: seq<Keyed>, k: string)
    requires FirstWith(items, k).Some?
    ensures FirstWith(items + more, k) == FirstWith(items, k)
    ensures var before, after := Expected(items, k), Expected(items + more, k);
      && after.title == before.title && after.description == before.description
      && after.link == before.link && after.published == before.published
      && after.sources == before.sources + SourcesWith(more, k)
    decreases |more|
  {
    SourcesWithConcat(items, more, k);
    if more == [] {
      assert items + more == items;
    } else {
      var m0 := more[..|more| - 1];
      assert (items + more)[..|items + more| - 1] == items + m0;
      FirstWriterWins(items, m0, k);
    }
  }

  /** `additionalInfo` is unset exactly when no item of the key has a
      description longer than `n`. */
  lemma {:induction false} LastRicherNone(items: seq<Keyed>, k: string, n: nat)
    ensures LastRicher(items, k, n).None? <==>
      forall i :: 0 <= i < |items| && items[i].key == k ==> |items[i].item.description| <= n
  {
    if items != [] {
      var init := items[..|items| - 1];
      LastRicherNone(init, k, n);
      assert forall i :: 0 <= i < |init| ==> init[i] == items[i];
    }
  }

  /** Item `i` carries key `k`, its description is longer than `n`, and no
      later item of the key has such a description. */
  predicate LastRicherAt(items: seq<Keyed>, k: string, n: nat, i: int) {
    && 0 <= i < |items| && items[i].key == k && |items[i].item.description| > n
    && forall j :: i < j < |items| && items[j].key == k ==> |items[j].item.description| <= n
  }

  /** When set, `additionalInfo` names the LAST item of the key whose
      description is longer than `n`. */
  lemma {:induction false} LastRicherIsLast(items: seq<Keyed>, k: string, n: nat)
    requires LastRicher(items, k, n).Some?
    ensures exists i :: (LastRicherAt(items, k, n, i)
      && LastRicher(items, k, n).value == Info(items[i].item.source, items[i].item.description))
  {
    var init := items[..|items| - 1];
    var last := items[|items| - 1];
    if last.key == k && |last.item.description| > n {
      assert LastRicherAt(items, k, n, |items| - 1);
    } else {
      LastRicherIsLast(init, k, n);
      var i :| LastRicherAt(init, k, n, i)
        && LastRicher(init, k, n).value == Info(init[i].item.source, init[i].item.description);
      assert items[i] == init[i];
      forall j | i < j < |items| && items[j].key == k
        ensures |items[j].item.description| <= n
      {
        if j < |init| {
          assert items[j] == init[j];
        }
      }
      assert LastRicherAt(items, k, n, i);
    }
  }

  /** The extra details never come from the first report itself: when set,
      they are strictly longer than the stored description. */
  lemma RicherThanBase(items: seq<Keyed>, k: string)
    requires FirstWith(items, k).Some?
    ensures Expected(items, k).additionalInfo.Some? ==>
      |Expected(items, k).additionalInfo.value.details| > |Expected(items, k).description|
  {
    var n := |FirstWith(items, k).value.description|;
    if LastRicher(items, k, n).Some? {
      LastRicherIsLast(items, k, n);
    }
  }
}

=== FILE: text.dfy ===
/** The string operations the services use, restricted to ASCII: lower-casing,
    substring search, prefix tests, removal of every occurrence of a pattern,
    splitting at the first separator, and fixed-width decimal rendering. */
module Text {

  predicate IsUpper(c: char) { 'A' <= c <= 'Z' }

  predicate IsLowerLetter(c: char) { 'a' <= c <= 'z' }

  predicate IsDigit(c: char) { '0' <= c <= '9' }

  /** ASCII lower-casing of one character; every other character is kept. */
  function LowerChar(c: char): char {
    if IsUpper(c) then (c as int + 32) as char else c
  }

  /** `s.lower()` for ASCII text. */
  function Lower(s: string): string {
    seq(|s|, i requires 0 <= i < |s| => LowerChar(s[i]))
  }

  /** A lower-cased string holds no upper-case letter, and lower-casing it again
      changes nothing. */
  lemma LowerIsLower(s: string)
    ensures forall i :: 0 <= i < |s| ==> !IsUpper(Lower(s)[i])
    ensures Lower(Lower(s)) == Lower(s)
  {
  }

  /** `needle` occurs in `hay` starting at index `i`. */
  predicate OccursAt(hay: string, needle: string, i: int) {
    0 <= i && i + |needle| <= |hay| && hay[i..i + |needle|] == needle
  }

  /** Python's `needle in hay` for strings. */
  predicate Contains(hay: string, needle: string) {
    exists i | 0 <= i <= |hay| :: OccursAt(hay, needle, i)
  }

  /** `s.startswith(p)`. */
  predicate StartsWith(s: string, p: string) {
    |p| <= |s| && s[..|p|] == p
  }

  /** An occurrence of an occurrence is an occurrence. */
  lemma ContainsTransitive(s: string, a: string, b: string)
    requires Contains(s, a) && Contains(a, b)
    ensures Contains(s, b)
  {
    var i :| 0 <= i <= |s| && OccursAt(s, a, i);
    var j :| 0 <= j <= |a| && OccursAt(a, b, j);
    forall k | 0 <= k < |b|
      ensures s[i + j + k] == b[k]
    {
      assert s[i..i + |a|][j + k] == a[j + k];
      assert a[j..j + |b|][k] == b[k];
    }
    assert s[i + j..i + j + |b|] == b;
    assert OccursAt(s, b, i + j);
  }

  /** A needle without upper-case letters found in `s` is still found, at the
      same place, in `Lower(s)`. */
  lemma LowerKeepsLowerNeedle(s: string, needle: string, i: int)
    requires OccursAt(s, needle, i)
    requires forall k :: 0 <= k < |needle| ==> !IsUpper(needle[k])
    ensures OccursAt(Lower(s), needle, i)
  {
    forall k | 0 <= k < |needle|
      ensures Lower(s)[i + k] == needle[k]
    {
      assert s[i..i + |needle|][k] == needle[k];
    }
    assert Lower(s)[i..i + |needle|] == needle;
  }

  /** `s.replace(pat, '')`: one left-to-right scan that drops every
      non-overlapping occurrence of `pat`. */
  function RemoveAll(s: string, pat: string): (r: string)
    requires |pat| > 0
    ensures |r| <= |s|
    decreases |s|
  {
    if |s| == 0 then []
    else if StartsWith(s, pat) then RemoveAll(s[|pat|..], pat)
    else [s[0]] + RemoveAll(s[1..], pat)
  }

  /** A string in which `pat` does not occur is left alone by the removal. */
  lemma {:induction false} RemoveAllAbsent(s: string, pat: string)
    requires |pat| > 0
    ensures !Contains(s, pat) ==> RemoveAll(s, pat) == s
    decreases |s|
  {
    if |s| > 0 && !Contains(s, pat) {
      assert !OccursAt(s, pat, 0);
      assert !StartsWith(s, pat);
      if Contains(s[1..], pat) {
        var i :| 0 <= i <= |s[1..]| && OccursAt(s[1..], pat, i);
        assert s[i + 1..i + 1 + |pat|] == s[1..][i..i + |pat|];
        assert OccursAt(s, pat, i + 1);
      }
      RemoveAllAbsent(s[1..], pat);
    }
  }

  /** `s.split(sep)[0]`: everything before the first `sep`, or all of `s`. */
  function BeforeFirst(s: string, sep: char): (r: string)
    ensures |r| <= |s| && r == s[..|r|]
    ensures sep !in r
    ensures |r| < |s| ==> s[|r|] == sep
  {
    if |s| == 0 then []
    else if s[0] == sep then []
    else [s[0]] + BeforeFirst(s[1..], sep)
  }

  /** The character of a decimal digit. */
  function Digit(n: nat): (c: char)
    requires n < 10
    ensures IsDigit(c)
  {
    (48 + n) as char
  }

  function Power10(w: nat): (p: nat)
    ensures p >= 1
  {
    if w == 0 then 1 else 10 * Power10(w - 1)
  }

  /** The last `width` decimal digits of `n`, zero-padded (`%0<width>d` for
      `n < 10^width`). */
  function Padded(n: nat, width: nat): (r: string)
    ensures |r| == width
  {
    if width == 0 then [] else Padded(n / 10, width - 1) + [Digit(n % 10)]
  }

  /** Every character of a zero-padded rendering is a decimal digit. */
  lemma {:induction false} PaddedDigits(n: nat, width: nat)
    ensures forall i :: 0 <= i < width ==> IsDigit(Padded(n, width)[i])
  {
    if width > 0 {
      PaddedDigits(n / 10, width - 1);
      var p := Padded(n / 10, width - 1);
      assert Padded(n, width) == p + [Digit(n % 10)];
      forall i | 0 <= i < width
        ensures IsDigit(Padded(n, width)[i])
      {
        if i < width - 1 {
          assert Padded(n, width)[i] == p[i];
        }
      }
    }
  }

  /** Zero-padded rendering is injective on the numbers that fit the width. */
  lemma {:induction false} PaddedInjective(a: nat, b: nat, width: nat)
    requires a < Power10(width) && b < Power10(width)
    ensures Padded(a, width) == Padded(b, width) <==> a == b
  {
    if width > 0 && Padded(a, width) == Padded(b, width) {
      var pa, pb := Padded(a / 10, width - 1), Padded(b / 10, width - 1);
      assert pa + [Digit(a % 10)] == pb + [Digit(b % 10)];
      assert Digit(a % 10) == (pa + [Digit(a % 10)])[width - 1];
      assert pa == (pa + [Digit(a % 10)])[..width - 1];
      assert pb == (pb + [Digit(b % 10)])[..width - 1];
      assert a % 10 == b % 10;
      PaddedInjective(a / 10, b / 10, width - 1);
    }
  }

  /** `str(n)` for an integer: the shortest decimal form, with a leading `-`
      when negative. */
  function Decimal(n: int): (r: string)
    ensures |r| > 0
    decreases if n < 0 then -n + 1 else n
  {
    if n < 0 then "-" + Decimal(-n)
    else if n < 10 then [Digit(n)]
    else Decimal(n / 10) + [Digit(n % 10)]
  }
}

=== FILE: wrappers.dfy ===
/** Optional values, results with an error channel, and the three-way state of
    a key looked up in a Python dict (absent, present but None, present). */
module Wrappers {

  datatype Option<+T> = None | Some(value: T) {

    /** The wrapped value, or `default` when there is none (Python's `x or default`). */
    function GetOr(default: T): T {
      match this
      case Some(v) => v
      case None => default
    }
  }

  datatype Result<+T, +E> = Ok(value: T) | Err(error: E)

  /** A dict entry read by key: the key may be missing, bound to None, or bound
      to a value. `d[k]` raises on Missing; `d.get(k, x)` yields x on Missing. */
  datatype Field<+T> = Missing | Null | Given(value: T)
}
